=== FILE: README.md ===
# ChatZoo core, modelled in Dafny

ChatZoo is a toy chat application with three personas: a cat that answers in
meows, a goldfish that remembers almost nothing, and a sloth that types slowly.
This project models the sequential logic under its user interface and proves
properties of it. It covers:

- **App.tsx front end** (`App`, `Composer`, `GeminiService`). This front end keeps
  one message log for the selected persona and wipes it on every switch. A send
  appends the user's message. For the sloth, a send also appends an empty
  placeholder, and interval-driven steppers fill it one character per tick from
  the chunks of a Gemini stream. The other personas get their whole answer at
  once. The input box sends on Enter without Shift. While a cat or goldfish reply
  is pending, a typing bubble shows; the sloth's empty placeholder takes its
  place.
- **Next.js chat page** (`FrontendChat`, frontend/types.ts). It posts to
  `/api/chat` and appends either the JSON answer or, for the sloth, a placeholder.
  The placeholder is overwritten by id with the text accumulated from the
  response stream. Every failure appends one fixed apology.
- **Mock chat page** (`MockChat`, frontend/components/ChatInterface.tsx). It answers
  every submission with one of four canned cat replies.
- **FastAPI backend** (`Backend`, backend/main.py). `/chat` dispatches on the model
  name. The cat turns the model's words into meows followed by an emoji. The
  goldfish keeps a per-session memory trimmed to its newest line. The sloth
  streams its reply one character at a time, with random pauses.
- **Shared vocabulary** (`Common`, `Text`). This is the personas and their wire
  names, plus the string functions the code relies on: JavaScript `trim`, Python
  `strip`, `str.split()`, `str.split(sep)`, `sep.join`, and the gluing of streamed
  fragments.

Everything is pure functions over immutable sequences and maps. Callbacks that
React, a timer or the network would run later are separate transitions whose
order the caller chooses: a send and its answer, a chunk and each tick of its
stepper, a submission and its completion. The stream reads inside one
completion of the Next.js page are the exception: they run as one loop, which
records every content the placeholder takes. Ids, random choices, the generative API and the
text-generation pipeline are parameters:

- `Date.now()` becomes an id argument.
- `random.choice` becomes a `pick: nat -> nat` reduced modulo the list's size.
- `random.random() < 0.3` becomes a `coin: nat -> bool`.
- The pipeline becomes a function from prompt and length limit to generated text.

## Model

| member | source | states |
|---|---|---|
| Common.ParsePersona | backend/main.py:47-54 | a model name names a persona exactly when it is one of the wire names "cat", "goldfish" or "sloth", and then it names that persona |
| Common.ParsePersonaId | frontend/types.ts:74-77 | the wire name a page posts for a persona is read back by the backend as that same persona |
| Text.Strip | backend/main.py:69 | the stripped text has no whitespace at either end, is no longer than the input, and is empty exactly when the input is all whitespace |
| Text.StripPadded | backend/main.py:69 | stripping removes exactly the whitespace padding around a stripped body |
| Text.StripIdempotent | backend/main.py:69 | stripping twice is the same as stripping once |
| Text.WordsOfJoin | backend/main.py:72-73 | splitting a space-joined list of words on whitespace gives the list back |
| Text.Words | backend/main.py:72 | `str.split()` yields only non-empty, whitespace-free words |
| Text.IndexOfSpec | backend/main.py:69 | the index search finds an occurrence of the separator with none before it, and finds nothing exactly when the separator does not occur |
| Text.SplitPieces | backend/main.py:69 | `split(sep)` yields one piece exactly when the separator does not occur, and no piece contains the separator |
| Text.Split | backend/main.py:69 | `split(sep)` always yields at least one piece |
| Text.BeforeMarkedEnd | backend/main.py:101 | in a text followed by a marker and anything after it, the first marker is the first one in the text, or else the appended one, so the part before it never depends on what follows |
| Text.JoinSplit | backend/main.py:69 | joining the pieces of `split(sep)` with `sep` gives the text back |
| Text.ConcatAppend | frontend/types.ts:132 | accumulating two runs of chunks equals accumulating the first run and then the second |
| Text.ConcatPrefix | frontend/types.ts:132 | the text accumulated after fewer chunks is a prefix of the text accumulated after more |
| GeminiService.SystemInstruction | services/geminiService.ts:7-17 | each persona gets its own fixed instruction, and the default instruction is given exactly when the name is not a persona's |
| GeminiService.InstructionsDistinct | services/geminiService.ts:7-17 | different personas are given different instructions |
| GeminiService.GetAiResponse | services/geminiService.ts:20-35 | the answer is the generated text, or exactly "Sorry, I'm having trouble thinking right now." when the call throws |
| GeminiService.StreamAiResponse | services/geminiService.ts:37-59 | `onChunk` receives every chunk in stream order, then the fallback text once after them when the stream throws, and nothing else |
| App.Init | App.tsx:10-13 | the page starts on the cat, with no messages and not loading |
| App.SelectModel | App.tsx:15-19 | selecting a persona sets it, empties the log and starts a new chat id, leaving loading and running steppers alone |
| App.ClearOnChatChange | App.tsx:56-59 | the effect keyed on the chat id empties the log and changes nothing else |
| App.ClearAfterSelectIsNoOp | App.tsx:15-19 | the effect that follows a switch finds the log already empty |
| App.SendMessage | App.tsx:21-28 | a send appends exactly one user message with the given text after the unchanged earlier messages and sets loading; for the sloth it also appends an empty assistant placeholder tagged 'sloth'; the persona, the chat id and the steppers are kept, so the wipe effect does not fire |
| App.ReceiveAnswer | App.tsx:49-52 | a non-sloth answer appends exactly one assistant message with the answer text, or the fallback text on error, tagged with the persona asked, and clears loading; nothing else in the state changes |
| App.ReceiveChunk | App.tsx:30-33 | each chunk starts one new stepper at its first character, and nothing else in the state changes |
| App.StreamFinished | App.tsx:45-46 | loading is cleared when the stream ends, whether or not the steppers have finished revealing, and nothing else in the state changes |
| App.Tick | App.tsx:33-42 | one firing changes only the log and its own stepper, keeps the length of the log, and leaves the persona, loading and chat id alone, whether React runs the updater at the firing or at the next render |
| App.Step | App.tsx:33-42 | a firing advances the stepper to the next position while characters remain, and clears the interval (stops it) once they are used up; the target and characters never change |
| App.TickAppendsOneChar | App.tsx:34-41 | a firing appends one piece of text to every message with the target id and to nothing else: the next character when the updater runs at the firing, and the one after it (or "undefined" past the end) when the updater runs after `charIndex++`; once the chunk is used up, a firing stops the stepper and changes no message |
| App.TicksRevealPrefix | App.tsx:31-41 | after k firings (k at most the chunk's length) the target messages hold their old text followed by what the firings read: the first k characters when every updater runs at the firing; characters 2 to k+1, with "undefined" for a read past the end, when every updater runs after `charIndex++` |
| App.TicksRevealWhole | App.tsx:34-41 | after the chunk is exhausted the stepper is stopped and later firings change nothing; the whole chunk is revealed when the updaters run at the firing, and the chunk without its first character followed by "undefined" when they run after `charIndex++` |
| App.DeferredRevealExample | App.tsx:34-38 | with every updater run after `charIndex++`, the chunk "ab" revealed into an empty message leaves it as "bundefined" |
| App.RevealSequentiallyConcat | App.tsx:30-43 | revealing chunk after chunk appends, in order, what each chunk's stepper appends over its run; with the updaters run at the firing, that is exactly the concatenation of the chunks |
| App.SlothSendReveals | App.tsx:26-46 | after a sloth send whose chunks are each revealed, the user's message stays in place and the placeholder holds what the steppers of the streamed texts append, in order; with the updaters run at the firing, the streamed chunks followed by the fallback text when the stream threw; earlier messages change only where their id collides with the placeholder's |
| App.StaleStepperHarmless | App.tsx:35-37 | a stepper whose target id is no longer in the log changes no message |
| App.ChunkTicksRun | App.tsx:30-42 | firing the stepper a chunk just started, n times, leaves the page with exactly the log and stepper of that stepper run alone over the log, and nothing else changed |
| App.ChunkRevealedInState | App.tsx:30-42 | a chunk received and fired to the end leaves every message with the placeholder's id extended by what its stepper appends (the whole chunk when the updaters run at the firing) and the stepper stopped |
| App.AppendTextKeeps | App.tsx:35-37 | the `prev.map` update keeps the log's length and every message's id, sender and persona, and appends the suffix to a text exactly where the id matches |
| App.AppendTextTwice | App.tsx:35-37 | two updates of the same id append the two suffixes in order |
| App.LateAnswerAfterSwitch | App.tsx:49-51 | an answer that arrives after a switch lands alone in the wiped log, tagged with the persona that was asked |
| App.AnswerAgreesWithStream | App.tsx:21-52 | one generation reaches the page with the same text by either path: the answer appended for the cat or goldfish equals what the sloth's placeholder holds once the same text is streamed in chunks and revealed with the updaters run at the firing; on a failed call both hold the fallback text |
| Composer.HandleSend | components/ChatInterface.tsx:34-39 | the raw input is sent exactly when its trim is non-empty and nothing is loading; a send clears the box, and a rejected send leaves it untouched |
| Composer.HandleKeyDown | components/ChatInterface.tsx:41-46 | only Enter without Shift suppresses the default and runs the send; every other key sends nothing and keeps the input |
| Composer.ShiftEnterDoesNotSend | components/ChatInterface.tsx:41-46 | Shift+Enter never sends and never changes the input |
| Composer.TypingAfterSend | components/ChatInterface.tsx:66-67 | right after a send the typing bubble shows exactly when the persona is not the sloth, whose placeholder is the last message |
| Composer.NoTypingAfterAnswer | components/ChatInterface.tsx:59-67 | once an answer is appended, neither the typing bubble nor the welcome screen shows |
| Composer.WelcomeAfterSwitch | components/ChatInterface.tsx:59-60 | after a switch the welcome screen shows and the typing bubble does not |
| FrontendChat.Init | frontend/types.ts:11-21 | the page starts with the greeting message "Hello! I'm ChatZoo. Select a mode below to start chatting!" (id "1", from the assistant, tagged cat) alone, an empty input, not loading, and the cat active |
| FrontendChat.SelectMode | frontend/types.ts:159 | a mode button changes only the active persona |
| FrontendChat.SetContentKeeps | frontend/types.ts:134-138 | the `prev.map` update keeps the log's length and every message's id, role and persona, and sets the content exactly where the id matches |
| FrontendChat.SetContentLastWins | frontend/types.ts:134-138 | of two content updates of the same id only the last one shows, so a render that skips an update ends with the same log |
| FrontendChat.HandleStreamResponse | frontend/types.ts:112-146 | the placeholder is appended with empty content and then holds the concatenation of all chunks; after chunk n it shows the first n chunks concatenated, each shown text is a prefix of the later ones, and messages with other ids are untouched |
| FrontendChat.EditInput | frontend/types.ts:232 | typing changes only the input |
| FrontendChat.Submit | frontend/types.ts:54-66 | before the `fetch`: a blank input or a pending reply changes nothing; otherwise the user's message with the raw input is appended, the input is cleared and loading is set |
| FrontendChat.SubmitWhilePending | frontend/types.ts:56-66 | while a reply is pending, whatever is typed or selected, a second submission is turned away by the loading half of the guard |
| FrontendChat.Resolve | frontend/types.ts:68-109 | after the `fetch`, on the page's state by then: loading is cleared and the input kept; a failed fetch, a bad status or a missing body appends one apology; the JSON path appends one answer, or an apology when the JSON does not parse; the sloth path appends the placeholder holding all chunks and one apology when a read throws; every message uses the persona captured at submission, and earlier messages change only where their id is the placeholder's |
| FrontendChat.HandleSubmit | frontend/types.ts:54-110 | with nothing happening during the `await`s: a blank input or a pending reply changes nothing; otherwise exactly one user message with the raw input is posted and appended, the input is cleared, and loading ends false; any failure appends exactly one apology, the JSON path appends one answer with the active persona, and the sloth path streams into the placeholder |
| MockChat.Init | frontend/components/ChatInterface.tsx:11-15 | the page starts with the assistant greeting "Hello! I'm ChatZoo. Meow! 😺" (id "1") alone, an empty input, not loading |
| MockChat.Submit | frontend/components/ChatInterface.tsx:31-39 | an accepted submission appends one user message with the input, clears the input and sets loading |
| MockChat.Resolve | frontend/components/ChatInterface.tsx:41-62 | after the wait, exactly one assistant message whose content is one of the four canned replies is appended, and loading is cleared |
| MockChat.HandleSubmit | frontend/components/ChatInterface.tsx:27-63 | a blank input or a pending reply changes nothing; otherwise one user message and then one canned reply are appended, the input is cleared, and loading ends false |
| MockChat.HandleSubmitKeepsAlternating | frontend/components/ChatInterface.tsx:27-63 | submissions keep the log a greeting followed by user/assistant pairs |
| MockChat.InitAlternating | frontend/components/ChatInterface.tsx:11-13 | the initial log is a greeting alone |
| Backend.SecondPieceMissing | backend/main.py:69 | `split(marker)[1]` raises IndexError exactly when the marker does not occur in the generated text |
| Backend.SecondPieceIsSplit | backend/main.py:69 | the extracted piece is the second element of `split(marker)`, and is missing exactly when the split has fewer than two pieces |
| Backend.SecondPiece | backend/main.py:69 | the second piece, when the marker occurs, is shorter than the generated text by at least the marker's length |
| Backend.Extract | backend/main.py:69 | the reply is missing exactly when the second piece is; otherwise it is stripped and shorter than the generated text |
| Backend.ReplyAfterPrompt | backend/main.py:101 | the reply read after the prompt always exists, is stripped, and is never longer than the generated text that follows the prompt (empty when the generated text is shorter than the prompt) |
| Backend.ContinuationFree | backend/main.py:101 | the continuation read after the prompt never contains "Goldfish:", so the reply cannot run into a next turn |
| Backend.ContinuationOfEcho | backend/main.py:94-101 | for an echoing pipeline, the continuation is the first piece of what the model appended |
| Backend.ExtractMatchesContinuation | backend/main.py:101 | when the prompt ends with the marker and holds no other marker, reading the second piece and reading the continuation give the same reply |
| Backend.MeowTokens | backend/main.py:73 | one token per word, each of them "meow" followed by one of the four suffixes |
| Backend.Meowify | backend/main.py:72-77 | read back as words, the cat's text is one meow per word of the model's reply followed by the chosen one of the nine emojis; an empty reply gives a space and the emoji |
| Backend.MeowifyWords | backend/main.py:72-77 | space-joined tokens followed by a space and an emoji split back into the tokens and the emoji |
| Backend.CatReply | backend/main.py:58-79 | a cat answer is at least one word, every word but the last is a meow, and the last is one of the nine emojis |
| Backend.CatReplyOutcome | backend/main.py:58-79 | the cat fails exactly when the generated text has no "Cat:", and otherwise answers with one more word than the extracted reply has |
| Backend.Recall | backend/main.py:83-88 | before generating, the session exists, holds at most one line (its newest, if it had any), and no other session changes |
| Backend.GoldfishPrompt | backend/main.py:91-92 | with no remembered line the prompt is "\nUser: <input>\nGoldfish:"; with one, it is that line followed by the same turn |
| Backend.Memorize | backend/main.py:83-107 | after a call the session holds the trimmed memory; when a reply came back, it also holds "User: input" and "Goldfish: reply" as its last two of at most three lines; no other session changes |
| Backend.GoldfishAsWritten | backend/main.py:81-109 | as written, the call fails exactly when the generated text contains no "Goldfish:"; otherwise the reply is stripped; the memory after a call is the trimmed memory plus the exchange |
| Backend.GoldfishReply | backend/main.py:81-109 | read from the continuation, a goldfish call always has a reply, and it is stripped; the memory after a call is the trimmed memory plus the exchange |
| Backend.MemoryWindow | backend/main.py:83-107 | two answered calls on one session leave exactly the first reply's line and the second exchange |
| Backend.GoldfishTwoTurns | backend/main.py:83-107 | two successful goldfish calls leave the session holding "Goldfish: r1", "User: i2", "Goldfish: r2" |
| Backend.GoldfishAsWrittenRepeatsMemory | backend/main.py:91-101 | on every call after a first one (the session's last line is "Goldfish: <prev>"), the as-written reply is cut from " <prev>\nUser: <input>\n" up to any "Goldfish:" in it, and stripped, whatever the model generated; when that text holds no "Goldfish:", the reply is all of it stripped |
| Backend.GoldfishAsWrittenIgnoresModel | backend/main.py:91-101 | on every call after a first one, the as-written reply does not depend on the generated text |
| Backend.GoldfishReplyIsModelText | backend/main.py:94-101 | read from the continuation, every goldfish reply is the model's own text up to its next "Goldfish:", stripped |
| Backend.GoldfishFirstCallAgrees | backend/main.py:91-101 | on a session's first call, unless the user's line contains "Goldfish:", the as-written and the corrected readings give the same reply |
| Backend.SlothStep | backend/main.py:124-128 | character i is yielded first, followed by one sleep exactly when i > 0 and the coin comes up |
| Backend.SlothEvents | backend/main.py:124-128 | the whole stream, with its sleeps dropped, is exactly the reply |
| Backend.SlothYieldsReply | backend/main.py:124-128 | the sloth stream yields the reply's characters in order and nothing else |
| Backend.SlothEventsPrefix | backend/main.py:124-128 | the events for fewer characters are a prefix of the events for more |
| Backend.SlothStartsAtOnce | backend/main.py:124-128 | the first two characters go out with no pause before or between them |
| Backend.SlothChunksConcat | backend/main.py:124-125 | one-character chunks glue back to the reply |
| Backend.ChatEndpoint | backend/main.py:42-56 | as written: a 400 with "Invalid model type" is answered exactly when the model name is not a persona's; the cat answers with JSON exactly when the generated text contains "Cat:", holding the cat's meows, and otherwise with a 500; the goldfish answers with JSON exactly when the generated text contains "Goldfish:", holding the as-written reply, and otherwise with a 500; the sloth answers with a stream whose characters are the extracted reply, or with an empty stream cut short when the generated text has no "Sloth:" |
| Backend.CorrectedChatEndpoint | backend/main.py:42-56 | with the goldfish's reply read from the continuation, the goldfish always answers with stripped JSON holding the corrected reply, the 400 is answered exactly when the model name is not a persona's, and every other persona is answered as by the as-written endpoint |
| Backend.GoldfishEndpointExample | backend/main.py:42-56 | a second goldfish call on the session remembering "Goldfish: hi", with the input "ok" and a model that appends " there": as written the endpoint answers "hi\nUser: ok", corrected it answers "there" |
| Backend.ChatEndpointMemory | backend/main.py:42-56 | only a goldfish call changes the memory, as the as-written goldfish leaves it, and then only its own session, which ends with at most three lines |
| Backend.MemorizeKeepsBounded | backend/main.py:83-107 | if every session holds at most three lines before a goldfish call, it still does after |
| Backend.ChatEndpointKeepsBounded | backend/main.py:42-56 | every call, as written or with the corrected goldfish, keeps every session at most three lines long |

## Left out

- Rendering, styling, scrolling and focus are left out (the JSX, `Sidebar.tsx`, `ModelSelector.tsx`, `Message.tsx`, `ChatMessage.tsx`, `icons.tsx`, `constants.tsx`). They are user interface, not logic.
- `fetch`, the Next.js handler `frontend/pages/api/chat.ts`, `TextDecoder`, `StreamingResponse` and CORS are I/O plumbing and are left out. A page sees the network's answer as a `Reply` value: status, body presence, parsed JSON and decoded chunks. `frontend/pages/api/chat.ts` is not part of this model.
- The Gemini SDK, the HuggingFace pipeline and `download_model.py` are foreign libraries. Generation is a parameter: a `Generation` or `StreamRun` for Gemini, and a `Pipeline` function for the backend.
- Timers and randomness are left out. Ticks, the mock page's one-second wait and the sloth's sleeps become explicit steps or `Pause` events, without durations. Random choices become parameters.
- `Date.now()` ids are inputs and are never assumed unique. The lemmas state what happens when they collide.
- The interleaving of several steppers is not reasoned about. The state may hold many steppers, and `App.Tick` fires any one of them. The reveal lemmas, however, assume each chunk is revealed to the end before the next chunk's stepper starts.
- App.Tick: when the updater passed to `setMessages` runs is React's choice: at the firing, when no other update is pending, or at the next render, after `charIndex++`. The model takes that choice as a parameter (`deferred`) and does not model how React makes it. A render held back past a second firing of the same interval, which would read `charIndex` two or more places on, is not modelled.
- App.TicksRevealPrefix: every firing of one stepper runs its updater with the same timing. A run that mixes the two timings is described only firing by firing, by `App.TickAppendsOneChar`.
- App.TicksRevealWhole: the same single timing per stepper run applies.
- App.RevealSequentiallyConcat: the same single timing applies, and to every chunk of the reveal alike.
- App.SlothSendReveals: the same single timing applies, and to every chunk of the reveal alike.
- App.ReceiveChunk: `chunk.split('')` splits into UTF-16 code units, so a character outside the Basic Multilingual Plane (an emoji) is revealed as two halves of a surrogate pair on two ticks. The model's strings are sequences of Unicode characters, one per tick.
- FrontendChat.HandleStreamResponse: the shown states assume each `setMessages` updater runs when it is scheduled. A deferred updater reads the later `fullResponse`, so a render may skip intermediate states. The final log is the same (`FrontendChat.SetContentLastWins`).
- The backend's goldfish needs `request.session_id`, but `ChatRequest` at backend/main.py:37-40 declares no such field, so the call at line 50 would fail. The model passes the session id as an explicit argument of `Backend.ChatEndpoint`. It also drops the unused optional `name` field.
- Backend.ChatEndpoint: uncaught exceptions are not told apart. The IndexError of a missing marker becomes `InternalError` (HTTP 500) for the cat and the goldfish. For the sloth it becomes a stream cut short with no characters, because the pipeline only runs once the stream is read.
- Backend.CatReply: `random.choice` is modelled as a pick reduced modulo the list's length. The model promises only that every token is one of the listed meows and the emoji is one of the nine. It says nothing about their distribution.
- Text.Strip: whitespace is the ASCII set that JavaScript's `trim` and Python's `strip`/`split()` share: space, tab, newline, carriage return, vertical tab and form feed. Python also counts the separators `\x1c` to `\x1f` and Unicode spaces; JavaScript also counts Unicode spaces and the byte order mark. Texts holding those characters are stripped and split differently by the model.
- GeminiService.GetAiResponse: `response.text` is `undefined` when the API returns no text (a blocked reply, for one), and `getAiResponse` hands that on, so the page appends a message whose text is `undefined`. `Generation` always carries a string, so the model says nothing about that case.
- FrontendChat.HandleSubmit: the `if (!reader) return;` exit of `handleStreamResponse` is not modelled. It cannot be taken, because line 80 already rejects a response without a body.
- FrontendChat.HandleSubmit: a JSON body without a `response` field would append a message whose content is `undefined`. The model reads `data.response` as either a string or a failed parse.
- GeminiService.StreamAiResponse: a chunk whose `text` is `undefined` is not modelled. Every chunk carries a string.
- MockChat.HandleSubmit: the `catch` branch only logs an error the wait can never raise, so it is not modelled.

## Findings

| source | as written | input that shows it | evidently intended | confidence | as-written member | corrected member |
|---|---|---|---|---|---|---|
| backend/main.py:101 | the goldfish reply is `response.split("Goldfish:")[1].strip()` of the generated text, which echoes the prompt; from a session's second call on, the prompt already starts with the remembered line "Goldfish: <previous reply>" | memory `["Goldfish: hi"]` and input `ok`: the prompt is `"Goldfish: hi\nUser: ok\nGoldfish:"`, so the second piece of the echoed text is `" hi\nUser: ok\n"` and the reply is `"hi\nUser: ok"`, whatever the model generated | the reply is the text the model generated after the prompt, up to its next "Goldfish:" | not executed; follows from the default `return_full_text=True` of the text-generation pipeline | Backend.ChatEndpoint (Backend.GoldfishAsWrittenRepeatsMemory, Backend.GoldfishAsWrittenIgnoresModel, Backend.GoldfishEndpointExample) | Backend.CorrectedChatEndpoint (Backend.GoldfishReplyIsModelText, Backend.GoldfishFirstCallAgrees) |
| App.tsx:34-38 | the `setMessages` updater reads the mutable `charIndex` and `chars[charIndex]`, and `charIndex++` follows the `setMessages` call | when React defers the updater to the next render, it runs after `charIndex++`: the chunk `"ab"` revealed into an empty message leaves `"bundefined"` | each chunk is revealed character by character, in order, and nothing else | not executed; depends on when React runs the updater | App.TicksRevealWhole (App.DeferredRevealExample) | App.RevealSequentiallyConcat (App.SlothSendReveals), with the character read at the firing |

=== FILE: app.dfy ===
/** The session controller of the single-page front end (App.tsx): one message log
    for the selected persona, wiped on every switch; a send appends the user's
    message and, for the sloth, an empty assistant placeholder that character
    steppers fill one character per tick; other personas get their whole answer
    appended at once.

    Asynchrony is made explicit: each callback that React or a timer would run
    later is a separate transition on `State`, and the caller decides their order.
    Every `setInterval` started by `streamHandler` is a `Stepper` in the state, and
    `Tick(s, k)` is one firing of the `k`-th of them. */
module App {
  import opened Common
  import opened Text
  import GeminiService

  datatype Sender = User | Ai

  /** A chat message (`Message` in types.ts). Ids come from `Date.now()` and are
      not assumed to be unique. */
  datatype Message = Message(id: int, text: string, sender: Sender, model: Option<Persona>)

  /** One running `setInterval` of `streamHandler`: the message id it writes to,
      the characters of its chunk, the next character to reveal, and whether the
      interval has not yet been cleared. */
  datatype Stepper = Stepper(target: int, chars: string, index: nat, running: bool)

  datatype State = State(
    selected: Persona,
    messages: seq<Message>,
    loading: bool,
    chatId: int,
    steppers: seq<Stepper>)

  /** The component's initial state: the cat, no messages, not loading. */
  function Init(chatId: int): (s: State)
    ensures s.selected == Cat && s.messages == [] && !s.loading && s.steppers == []
  {
    State(Cat, [], false, chatId, [])
  }

  /** `handleSelectModel`: select the persona, wipe the log, start a new chat id.
      The loading flag and running steppers are left as they are. */
  function SelectModel(s: State, p: Persona, chatId: int): (r: State)
    ensures r.selected == p && r.messages == [] && r.chatId == chatId
    ensures r.loading == s.loading && r.steppers == s.steppers
  {
    s.(selected := p, messages := [], chatId := chatId)
  }

  /** The effect keyed on the chat id: it clears the log once more. */
  function ClearOnChatChange(s: State): (r: State)
    ensures r.messages == []
    ensures r.selected == s.selected && r.loading == s.loading && r.steppers == s.steppers
    ensures r.chatId == s.chatId
  {
    s.(messages := [])
  }

  /** The synchronous part of `handleSendMessage`: append the user's message, set
      loading, and for the sloth append an empty assistant placeholder. `userId`
      and `aiId` stand for `Date.now()` and `Date.now() + 1`. */
  function SendMessage(s: State, text: string, userId: int, aiId: int): (r: State)
    ensures r == s.(messages := r.messages, loading := true)
    ensures |r.messages| == |s.messages| + (if s.selected == Sloth then 2 else 1)
    ensures r.messages[..|s.messages|] == s.messages
    ensures r.messages[|s.messages|] == Message(userId, text, User, None)
    ensures s.selected == Sloth ==>
              r.messages[|s.messages| + 1] == Message(aiId, "", Ai, Some(Sloth))
  {
    var withUser := s.messages + [Message(userId, text, User, None)];
    if s.selected == Sloth then
      s.(messages := withUser + [Message(aiId, "", Ai, Some(Sloth))], loading := true)
    else
      s.(messages := withUser, loading := true)
  }

  /** Non-sloth continuation: `getAiResponse` has settled, so append its text as one
      assistant message tagged with the persona captured at send time, and clear
      loading. */
  function ReceiveAnswer(s: State, aiId: int, model: Persona, answer: GeminiService.Generation): (r: State)
    ensures |r.messages| == |s.messages| + 1
    ensures r.messages[..|s.messages|] == s.messages
    ensures r.messages[|s.messages|] ==
              Message(aiId, GeminiService.GetAiResponse(answer), Ai, Some(model))
    ensures answer.Threw? ==> r.messages[|s.messages|].text == GeminiService.ThinkingFallback
    ensures r == s.(messages := r.messages, loading := false)
  {
    s.(messages := s.messages + [Message(aiId, GeminiService.GetAiResponse(answer), Ai, Some(model))],
       loading := false)
  }

  /** The effect after a switch finds the log already empty. */
  lemma ClearAfterSelectIsNoOp(s: State, p: Persona, chatId: int)
    ensures ClearOnChatChange(SelectModel(s, p, chatId)) == SelectModel(s, p, chatId)
  {
  }

  /** `streamHandler(chunk)`: start a new stepper over the chunk's characters. */
  function ReceiveChunk(s: State, aiId: int, chunk: string): (r: State)
    ensures r == s.(steppers := s.steppers + [Stepper(aiId, chunk, 0, true)])
  {
    s.(steppers := s.steppers + [Stepper(aiId, chunk, 0, true)])
  }

  /** `await streamAiResponse(...)` has returned: loading is cleared at once, while
      the steppers may still have characters left to reveal. */
  function StreamFinished(s: State): (r: State)
    ensures r == s.(loading := false)
  {
    s.(loading := false)
  }

  /** `prev.map(msg => msg.id === id ? {...msg, text: msg.text + suffix} : msg)`. */
  function AppendText(msgs: seq<Message>, id: int, suffix: string): seq<Message>
  {
    seq(|msgs|, i requires 0 <= i < |msgs| =>
      if msgs[i].id == id then msgs[i].(text := msgs[i].text + suffix) else msgs[i])
  }

  /** The update keeps the log's length and every message's id, sender and persona;
      a text grows by the suffix exactly where the id matches. */
  lemma AppendTextKeeps(msgs: seq<Message>, id: int, suffix: string)
    ensures var r := AppendText(msgs, id, suffix);
      && |r| == |msgs|
      && forall i :: 0 <= i < |msgs| ==>
           && r[i] == msgs[i].(text := r[i].text)
           && r[i].text == msgs[i].text + (if msgs[i].id == id then suffix else "")
  {
  }

  /** What the updater `msg.text + chars[charIndex]` appends when it reads position
      `i`: that character, or, past the end of the chunk, `undefined`, which the
      string concatenation turns into the text "undefined". */
  function CharAt(chars: string, i: nat): string
  {
    if i < |chars| then [chars[i]] else "undefined"
  }

  /** One firing of a stepper's interval. The updater handed to `setMessages` reads
      the captured `charIndex` only when React runs it: at the firing itself when no
      other update is pending, or, when `deferred`, at the next render, after line
      38 has already advanced `charIndex`. */
  function Step(msgs: seq<Message>, st: Stepper, deferred: bool): (r: (seq<Message>, Stepper))
    ensures r.1.target == st.target && r.1.chars == st.chars
    ensures r.1.running <==> st.running && st.index < |st.chars|
    ensures r.1.index == if r.1.running then st.index + 1 else st.index
  {
    if !st.running then (msgs, st)
    else if st.index < |st.chars| then
      var read := if deferred then st.index + 1 else st.index;
      (AppendText(msgs, st.target, CharAt(st.chars, read)), st.(index := st.index + 1))
    else (msgs, st.(running := false))
  }

  /** The `k`-th stepper fires once. */
  function Tick(s: State, k: nat, deferred: bool): (r: State)
    requires k < |s.steppers|
    ensures |r.steppers| == |s.steppers| && |r.messages| == |s.messages|
    ensures forall j :: 0 <= j < |s.steppers| && j != k ==> r.steppers[j] == s.steppers[j]
    ensures r == s.(messages := r.messages, steppers := r.steppers)
  {
    var (msgs, st) := Step(s.messages, s.steppers[k], deferred);
    s.(messages := msgs, steppers := s.steppers[k := st])
  }

  /** One firing appends one piece of text to every message carrying the stepper's
      target id and changes nothing else: the next character of the chunk when the
      updater runs at once; the one after it, or "undefined" past the end, when the
      updater is deferred. Once the chunk is used up, a firing stops the stepper and
      leaves the messages alone. */
  lemma TickAppendsOneChar(msgs: seq<Message>, st: Stepper, deferred: bool)
    requires st.running
    ensures var (msgs', st') := Step(msgs, st, deferred);
      && |msgs'| == |msgs|
      && st'.target == st.target && st'.chars == st.chars
      && (forall i :: 0 <= i < |msgs| && msgs[i].id != st.target ==> msgs'[i] == msgs[i])
      && (st.index < |st.chars| ==>
            var piece :=
              if !deferred then [st.chars[st.index]]
              else if st.index + 1 < |st.chars| then [st.chars[st.index + 1]]
              else "undefined";
            st'.running && st'.index == st.index + 1 &&
            forall i :: 0 <= i < |msgs| && msgs[i].id == st.target ==>
              msgs'[i] == msgs[i].(text := msgs[i].text + piece))
      && (st.index >= |st.chars| ==> msgs' == msgs && !st'.running)
  {
  }

  /** `k` firings of one stepper, with no other stepper firing in between. */
  function RunTicks(msgs: seq<Message>, st: Stepper, k: nat, deferred: bool): (seq<Message>, Stepper)
  {
    if k == 0 then (msgs, st)
    else
      var (m, t) := RunTicks(msgs, st, k - 1, deferred);
      Step(m, t, deferred)
  }

  lemma AppendTextTwice(msgs: seq<Message>, id: int, a: string, b: string)
    ensures AppendText(AppendText(msgs, id, a), id, b) == AppendText(msgs, id, a + b)
  {
    var l := AppendText(AppendText(msgs, id, a), id, b);
    var r := AppendText(msgs, id, a + b);
    forall i | 0 <= i < |msgs|
      ensures l[i] == r[i]
    {
      if msgs[i].id == id {
        assert msgs[i].text + a + b == msgs[i].text + (a + b);
      }
    }
  }

  lemma AppendTextEmpty(msgs: seq<Message>, id: int)
    ensures AppendText(msgs, id, "") == msgs
  {
    forall i | 0 <= i < |msgs|
      ensures AppendText(msgs, id, "")[i] == msgs[i]
    {
      assert msgs[i].text + "" == msgs[i].text;
    }
  }

  /** The text `k` firings of a fresh stepper append (`k` at most the chunk's
      length): its first `k` characters when every updater runs at once; when every
      updater is deferred, each firing reads one position further on, so the
      characters from the second on, and "undefined" for the firing at the end. */
  function Revealed(chunk: string, k: nat, deferred: bool): string
    requires k <= |chunk|
  {
    if !deferred then chunk[..k]
    else if k == 0 then ""
    else if k < |chunk| then chunk[1..k + 1]
    else chunk[1..] + "undefined"
  }

  /** What a stepper appends over its whole run. */
  function Whole(chunk: string, deferred: bool): string
  {
    if deferred && |chunk| > 0 then chunk[1..] + "undefined" else chunk
  }

  /** The `k`-th firing extends what the first `k - 1` revealed by what it reads. */
  lemma RevealedStep(chunk: string, k: nat, deferred: bool)
    requires 1 <= k <= |chunk|
    ensures Revealed(chunk, k - 1, deferred) + CharAt(chunk, if deferred then k else k - 1)
              == Revealed(chunk, k, deferred)
  {
    if !deferred {
      assert chunk[..k - 1] + [chunk[k - 1]] == chunk[..k];
    } else if k == 1 {
      if 1 < |chunk| {
        assert chunk[1..2] == [chunk[1]];
      } else {
        assert chunk[1..] == "";
      }
    } else if k < |chunk| {
      assert chunk[1..k] + [chunk[k]] == chunk[1..k + 1];
    } else {
      assert chunk[1..k] == chunk[1..];
    }
  }

  /** After `k` firings of a fresh stepper (`k` at most the chunk's length), every
      message with the target id holds its old text followed by what those firings
      revealed: the chunk's first `k` characters when the updaters run at once. */
  lemma {:induction false} TicksRevealPrefix(msgs: seq<Message>, id: int, chunk: string, k: nat, deferred: bool)
    requires k <= |chunk|
    ensures RunTicks(msgs, Stepper(id, chunk, 0, true), k, deferred)
              == (AppendText(msgs, id, Revealed(chunk, k, deferred)), Stepper(id, chunk, k, true))
    ensures !deferred ==> Revealed(chunk, k, deferred) == chunk[..k]
  {
    if k == 0 {
      AppendTextEmpty(msgs, id);
    } else {
      TicksRevealPrefix(msgs, id, chunk, k - 1, deferred);
      RevealedStep(chunk, k, deferred);
      AppendTextTwice(msgs, id, Revealed(chunk, k - 1, deferred), CharAt(chunk, if deferred then k else k - 1));
    }
  }

  /** The firing after the last character stops the stepper, and every later firing
      changes nothing. With the updaters run at once the whole chunk is revealed;
      with every updater deferred, the chunk loses its first character and gains
      "undefined" at its end. */
  lemma {:induction false} TicksRevealWhole(msgs: seq<Message>, id: int, chunk: string, extra: nat, deferred: bool)
    ensures RunTicks(msgs, Stepper(id, chunk, 0, true), |chunk| + 1 + extra, deferred)
              == (AppendText(msgs, id, if deferred && |chunk| > 0 then chunk[1..] + "undefined" else chunk),
                  Stepper(id, chunk, |chunk|, false))
  {
    if extra == 0 {
      TicksRevealPrefix(msgs, id, chunk, |chunk|, deferred);
      assert chunk[..|chunk|] == chunk;
      if deferred && |chunk| == 0 {
        assert Revealed(chunk, 0, deferred) == "";
      }
    } else {
      TicksRevealWhole(msgs, id, chunk, extra - 1, deferred);
    }
  }

  /** The chunk "ab" revealed into an empty message with every updater deferred: the
      message ends as "bundefined". */
  lemma DeferredRevealExample(m: Message, chunk: string)
    requires m.text == "" && chunk == "ab"
    ensures RunTicks([m], Stepper(m.id, chunk, 0, true), |chunk| + 1, true).0
              == [m.(text := "bundefined")]
  {
    var shown := chunk[1..] + "undefined";
    TicksRevealWhole([m], m.id, chunk, 0, true);
    AppendTextSingle(m, shown);
    assert m.text + shown == "bundefined";
  }

  lemma AppendTextSingle(m: Message, suffix: string)
    ensures AppendText([m], m.id, suffix) == [m.(text := m.text + suffix)]
  {
    var r := AppendText([m], m.id, suffix);
    assert r[0] == m.(text := m.text + suffix);
  }

  /** What each chunk's stepper appends over its whole run, chunk by chunk. */
  function Wholes(chunks: seq<string>, deferred: bool): seq<string>
  {
    seq(|chunks|, i requires 0 <= i < |chunks| => Whole(chunks[i], deferred))
  }

  /** The chunks handed to `streamHandler`, each revealed to the end before the next
      chunk's stepper starts. */
  function RevealSequentially(msgs: seq<Message>, id: int, chunks: seq<string>, deferred: bool): seq<Message>
    decreases |chunks|
  {
    if |chunks| == 0 then msgs
    else
      var last := chunks[|chunks| - 1];
      var before := RevealSequentially(msgs, id, chunks[..|chunks| - 1], deferred);
      RunTicks(before, Stepper(id, last, 0, true), |last| + 1, deferred).0
  }

  /** Revealing chunk after chunk appends, in order, what each stepper appends over
      its run: the concatenation of the chunks themselves when the updaters run at
      once. */
  lemma {:induction false} RevealSequentiallyConcat(msgs: seq<Message>, id: int, chunks: seq<string>, deferred: bool)
    ensures RevealSequentially(msgs, id, chunks, deferred) == AppendText(msgs, id, Concat(Wholes(chunks, deferred)))
    ensures !deferred ==> Wholes(chunks, deferred) == chunks
    decreases |chunks|
  {
    if |chunks| == 0 {
      AppendTextEmpty(msgs, id);
    } else {
      var last := chunks[|chunks| - 1];
      var init := chunks[..|chunks| - 1];
      var ws := Wholes(chunks, deferred);
      RevealSequentiallyConcat(msgs, id, init, deferred);
      assert Wholes(init, deferred) == ws[..|ws| - 1];
      TicksRevealWhole(AppendText(msgs, id, Concat(Wholes(init, deferred))), id, last, 0, deferred);
      AppendTextTwice(msgs, id, Concat(Wholes(init, deferred)), Whole(last, deferred));
      ConcatAppend(ws[..|ws| - 1], [ws[|ws| - 1]]);
      assert ws[..|ws| - 1] + [ws[|ws| - 1]] == ws;
      assert Concat([ws[|ws| - 1]]) == ws[|ws| - 1] by {
        assert [ws[|ws| - 1]][..0] == [];
      }
    }
  }

  /** A sloth send whose stream chunks are each revealed in turn: the placeholder ends
      up holding what the steppers of the texts `streamAiResponse` passed on append,
      in order; with the updaters run at once, exactly those texts, ending with the
      fallback text when the stream failed. Messages before the send change only
      where their id collides with the placeholder's. */
  lemma SlothSendReveals(s: State, text: string, userId: int, aiId: int, run: GeminiService.StreamRun, deferred: bool)
    requires s.selected == Sloth
    ensures var sent := SendMessage(s, text, userId, aiId);
      var d := GeminiService.Delivered(run);
      var final := RevealSequentially(sent.messages, aiId, d, deferred);
      && |final| == |s.messages| + 2
      && final[|s.messages| + 1] == Message(aiId, Concat(Wholes(d, deferred)), Ai, Some(Sloth))
      && (forall i :: 0 <= i < |s.messages| && s.messages[i].id != aiId ==> final[i] == s.messages[i])
      && (userId != aiId ==> final[|s.messages|] == Message(userId, text, User, None))
      && (!deferred ==>
            final[|s.messages| + 1].text
              == Concat(run.chunks) + (if run.throws then GeminiService.ThinkingFallback else ""))
  {
    var sent := SendMessage(s, text, userId, aiId);
    var d := GeminiService.Delivered(run);
    RevealSequentiallyConcat(sent.messages, aiId, d, deferred);
    var final := AppendText(sent.messages, aiId, Concat(Wholes(d, deferred)));
    assert final[|s.messages| + 1].text == "" + Concat(Wholes(d, deferred));
    if !deferred {
      if run.throws {
        ConcatAppend(run.chunks, [GeminiService.ThinkingFallback]);
        assert Concat([GeminiService.ThinkingFallback]) == GeminiService.ThinkingFallback by {
          assert [GeminiService.ThinkingFallback][..0] == [];
        }
      } else {
        assert d == run.chunks;
      }
    }
  }

  /** A stepper whose target id no longer appears in the log (after a persona switch
      wiped it) changes no message when it fires. */
  lemma StaleStepperHarmless(s: State, k: nat, deferred: bool)
    requires k < |s.steppers|
    requires forall i :: 0 <= i < |s.messages| ==> s.messages[i].id != s.steppers[k].target
    ensures Tick(s, k, deferred).messages == s.messages
  {
    var st := s.steppers[k];
    if st.running && st.index < |st.chars| {
      var read := if deferred then st.index + 1 else st.index;
      assert AppendText(s.messages, st.target, CharAt(st.chars, read)) == s.messages;
    }
  }

  /** A non-sloth answer that settles after the user switched persona lands in the new,
      freshly wiped log, still tagged with the persona it was asked of. */
  lemma LateAnswerAfterSwitch(s: State, p: Persona, chatId: int, aiId: int, asked: Persona, answer: GeminiService.Generation)
    ensures ReceiveAnswer(SelectModel(s, p, chatId), aiId, asked, answer).messages
              == [Message(aiId, GeminiService.GetAiResponse(answer), Ai, Some(asked))]
  {
  }

  /** `n` firings of the `k`-th stepper, with no other stepper firing in between. */
  function Fire(s: State, k: nat, n: nat, deferred: bool): (r: State)
    requires k < |s.steppers|
    ensures |r.steppers| == |s.steppers|
  {
    if n == 0 then s else Tick(Fire(s, k, n - 1, deferred), k, deferred)
  }

  /** Firing the stepper that a chunk just started is running that stepper alone
      over the log: the page's messages and the new stepper are exactly what
      `RunTicks` gives, and nothing else in the state changes. */
  lemma {:induction false} ChunkTicksRun(s: State, aiId: int, chunk: string, n: nat, deferred: bool)
    ensures var (m, st) := RunTicks(s.messages, Stepper(aiId, chunk, 0, true), n, deferred);
      Fire(ReceiveChunk(s, aiId, chunk), |s.steppers|, n, deferred)
        == s.(messages := m, steppers := s.steppers + [st])
  {
    if n > 0 {
      ChunkTicksRun(s, aiId, chunk, n - 1, deferred);
      var (m, st) := RunTicks(s.messages, Stepper(aiId, chunk, 0, true), n - 1, deferred);
      assert (s.steppers + [st])[|s.steppers|] == st;
      assert (s.steppers + [st])[|s.steppers| := Step(m, st, deferred).1]
               == s.steppers + [Step(m, st, deferred).1];
    }
  }

  /** A chunk received into the page and fired to the end: every message with the
      placeholder's id has gained what the stepper appends over its run (the whole
      chunk when the updaters run at once), and the stepper is stopped. */
  lemma ChunkRevealedInState(s: State, aiId: int, chunk: string, deferred: bool)
    ensures Fire(ReceiveChunk(s, aiId, chunk), |s.steppers|, |chunk| + 1, deferred)
              == s.(messages := AppendText(s.messages, aiId, Whole(chunk, deferred)),
                    steppers := s.steppers + [Stepper(aiId, chunk, |chunk|, false)])
    ensures !deferred ==> Whole(chunk, deferred) == chunk
  {
    ChunkTicksRun(s, aiId, chunk, |chunk| + 1, deferred);
    TicksRevealWhole(s.messages, aiId, chunk, 0, deferred);
  }

  /** The same generation reaches the page by either path with the same text: the
      answer a non-sloth persona gets appended is the text the sloth's placeholder
      ends up holding when the stream yields the generated text in chunks and the
      updaters run at once; when the call fails, both hold the fallback text. */
  lemma AnswerAgreesWithStream(s: State, text: string, userId: int, aiId: int, p: Persona,
                               chunks: seq<string>, throws: bool)
    requires p != Sloth
    ensures var answer := if throws then GeminiService.Threw else GeminiService.Answered(Concat(chunks));
      var run := GeminiService.StreamRun(if throws then [] else chunks, throws);
      var answered := ReceiveAnswer(SendMessage(s.(selected := p), text, userId, aiId), aiId, p, answer);
      var streamed := RevealSequentially(SendMessage(s.(selected := Sloth), text, userId, aiId).messages,
                                         aiId, GeminiService.Delivered(run), false);
      && |streamed| == |s.messages| + 2
      && answered.messages[|s.messages| + 1].text == streamed[|s.messages| + 1].text
      && (throws ==> streamed[|s.messages| + 1].text == GeminiService.ThinkingFallback)
  {
    var run := GeminiService.StreamRun(if throws then [] else chunks, throws);
    SlothSendReveals(s.(selected := Sloth), text, userId, aiId, run, false);
  }
}

=== FILE: backend.dfy ===
/** The FastAPI backend (backend/main.py): the `/chat` dispatch on the model name,
    and the three reply generators around one text-generation pipeline. The
    pipeline is a parameter that maps a prompt and a length limit to the generated
    text; random choices are parameters reduced modulo the size of the list they
    pick from; the sloth's sleeps are `Pause` events. */
module Backend {
  import opened Common
  import opened Text

  /** The text-generation pipeline: prompt and `max_length` to `generated_text`. */
  type Pipeline = (string, nat) -> string

  const CatMarker := "Cat:"
  const GoldfishMarker := "Goldfish:"
  const SlothMarker := "Sloth:"

  const MeowSuffixes: seq<string> := ["", "!", "~", "?"]
  const CatEmojis: seq<string> := ["😺", "😸", "😹", "😻", "😼", "😽", "🙀", "😿", "😾"]

  /** The four tokens a cat reply is made of. */
  const Meows: seq<string> := ["meow", "meow!", "meow~", "meow?"]

  // ---------------------------------------------------------------- extraction

  /** `generated.split(marker)[1]`: the text between the first and the second
      occurrence of the marker (or the end). `None` is the IndexError raised when the
      marker does not occur. */
  function SecondPiece(generated: string, marker: string): (r: Option<string>)
    requires |marker| > 0
    ensures r.Some? ==> |r.value| + |marker| <= |generated|
  {
    match IndexOf(generated, marker)
    case None => None
    case Some(i) => Some(Before(generated[i + |marker|..], marker))
  }

  /** The IndexError happens exactly when the marker does not occur. */
  lemma SecondPieceMissing(generated: string, marker: string)
    requires |marker| > 0
    ensures SecondPiece(generated, marker).None? <==> Free(generated, marker)
  {
    IndexOfSpec(generated, marker);
  }

  /** `SecondPiece` is Python's reading: the second piece of the split, and an
      IndexError when there is none. */
  lemma SecondPieceIsSplit(generated: string, marker: string)
    requires |marker| > 0
    ensures var parts := Split(generated, marker);
      SecondPiece(generated, marker) == if |parts| < 2 then None else Some(parts[1])
  {
    match IndexOf(generated, marker)
    case None =>
    case Some(i) =>
      SplitTail(generated, marker, i);
      SplitHead(generated[i + |marker|..], marker);
  }

  /** `.strip()` applied to a piece that may be missing. */
  function StripPiece(piece: Option<string>): (r: Option<string>)
    ensures r.None? <==> piece.None?
    ensures r.Some? ==> Stripped(r.value) && |r.value| <= |piece.value|
  {
    match piece
    case None => None
    case Some(text) => Some(Strip(text))
  }

  /** `generated.split(marker)[1].strip()`. */
  function Extract(generated: string, marker: string): (r: Option<string>)
    requires |marker| > 0
    ensures r.None? <==> SecondPiece(generated, marker).None?
    ensures r.Some? ==> Stripped(r.value) && |r.value| + |marker| <= |generated|
  {
    StripPiece(SecondPiece(generated, marker))
  }

  /** What the model generated after the prompt, up to its next marker: Python's
      `generated[len(prompt):].split(marker)[0]`, which skips the echoed prompt
      by its length (and is empty when the text is shorter than the prompt). */
  function Continuation(generated: string, prompt: string, marker: string): string
    requires |marker| > 0
  {
    var start := if |prompt| <= |generated| then |prompt| else |generated|;
    Before(generated[start..], marker)
  }

  /** The reply as it was evidently meant to be read: the continuation, stripped.
      It always exists, and it is never longer than what follows the prompt. */
  function ReplyAfterPrompt(generated: string, prompt: string, marker: string): (r: string)
    requires |marker| > 0
    ensures Stripped(r)
    ensures |r| + |prompt| <= |generated| || r == ""
  {
    Strip(Continuation(generated, prompt, marker))
  }

  /** The continuation never contains the marker: the reply is one turn. */
  lemma ContinuationFree(generated: string, prompt: string, marker: string)
    requires |marker| > 0
    ensures Free(Continuation(generated, prompt, marker), marker)
  {
    var start := if |prompt| <= |generated| then |prompt| else |generated|;
    SplitHead(generated[start..], marker);
    SplitPieces(generated[start..], marker);
  }

  /** The continuation of an echoed prompt is the first piece of what the model
      appended. */
  lemma ContinuationOfEcho(prompt: string, cont: string, marker: string)
    requires |marker| > 0
    ensures Continuation(prompt + cont, prompt, marker) == Split(cont, marker)[0]
  {
    assert (prompt + cont)[|prompt|..] == cont;
    SplitHead(cont, marker);
  }

  /** For a prompt that ends with the marker and holds no other one, the
      as-written second piece and the continuation agree: both give the model's
      first turn. */
  lemma ExtractMatchesContinuation(x: string, marker: string, cont: string)
    requires LastOnce(marker) && Free(x, marker)
    ensures var prompt := x + marker;
      Extract(prompt + cont, marker) == Some(ReplyAfterPrompt(prompt + cont, prompt, marker))
  {
    var prompt := x + marker;
    var g := prompt + cont;
    BeforeMarkedEnd(x, marker, cont);
    assert g[|x| + |marker|..] == cont;
    assert SecondPiece(g, marker) == Some(Before(cont, marker));
    assert g[|prompt|..] == cont;
    assert Continuation(g, prompt, marker) == Before(cont, marker);
  }

  // ---------------------------------------------------------------- cat

  function CatPrompt(input: string): string
  {
    "User: " + input + "\nCat:"
  }

  /** One `"meow" + random.choice(["", "!", "~", "?"])` per word, in order. */
  function MeowTokens(count: nat, pick: nat -> nat): (ts: seq<string>)
    ensures |ts| == count
    ensures forall i :: 0 <= i < count ==> ts[i] in Meows && IsWord(ts[i])
  {
    MeowsAreWords();
    seq(count, i requires 0 <= i < count => "meow" + MeowSuffixes[pick(i) % 4])
  }

  lemma MeowsAreWords()
    ensures forall k :: 0 <= k < 4 ==> "meow" + MeowSuffixes[k] == Meows[k] && IsWord(Meows[k])
  {
    forall k | 0 <= k < 4
      ensures "meow" + MeowSuffixes[k] == Meows[k] && IsWord(Meows[k])
    {
      var w := Meows[k];
      assert w[..4] == "meow";
      assert forall j :: 0 <= j < |w| ==> !IsSpace(w[j]);
    }
  }

  /** Lines 72-77: the words of the extracted reply become space-joined meows, then a
      space and one cat emoji. Read back with `str.split()`, the result is exactly
      one meow per word of the reply followed by the emoji. */
  function Meowify(reply: string, pick: nat -> nat, emojiPick: nat): (r: string)
    ensures var ws := Words(r);
      && |ws| == |Words(reply)| + 1
      && (forall i :: 0 <= i < |ws| - 1 ==> ws[i] in Meows)
      && ws[|ws| - 1] == CatEmojis[emojiPick % 9]
    ensures |Words(reply)| == 0 ==> r == " " + CatEmojis[emojiPick % 9]
  {
    var tokens := MeowTokens(|Words(reply)|, pick);
    var emoji := CatEmojis[emojiPick % 9];
    MeowifyWords(tokens, emoji);
    JoinWith(tokens, " ") + " " + emoji
  }

  lemma MeowifyWords(tokens: seq<string>, emoji: string)
    requires forall i :: 0 <= i < |tokens| ==> IsWord(tokens[i])
    requires emoji in CatEmojis
    ensures Words(JoinWith(tokens, " ") + " " + emoji) == tokens + [emoji]
  {
    assert IsWord(emoji);
    if |tokens| == 0 {
      assert JoinWith(tokens, " ") + " " + emoji == " " + emoji;
      assert (" " + emoji)[1..] == emoji;
      WordsOfWordThen(emoji, "");
      assert emoji + "" == emoji;
    } else {
      JoinWithSnoc(tokens, emoji, " ");
      WordsOfJoin(tokens + [emoji]);
    }
  }

  /** `generate_cat_response`; `None` is the IndexError when the pipeline's text has
      no "Cat:". */
  function CatReply(input: string, pipeline: Pipeline, pick: nat -> nat, emojiPick: nat): (r: Option<string>)
    ensures r.Some? ==> var ws := Words(r.value);
      && |ws| >= 1
      && (forall i :: 0 <= i < |ws| - 1 ==> ws[i] in Meows)
      && ws[|ws| - 1] in CatEmojis
  {
    match Extract(pipeline(CatPrompt(input), 100), CatMarker)
    case None => None
    case Some(reply) => Some(Meowify(reply, pick, emojiPick))
  }

  /** The cat fails exactly when the pipeline's text has no "Cat:"; otherwise it
      answers with one meow per word of the model's reply. */
  lemma CatReplyOutcome(input: string, pipeline: Pipeline, pick: nat -> nat, emojiPick: nat)
    ensures var generated := pipeline(CatPrompt(input), 100);
      var r := CatReply(input, pipeline, pick, emojiPick);
      && (r.None? <==> Free(generated, CatMarker))
      && (r.Some? ==> |Words(r.value)| == |Words(Extract(generated, CatMarker).value)| + 1)
  {
    SecondPieceMissing(pipeline(CatPrompt(input), 100), CatMarker);
  }

  // ---------------------------------------------------------------- goldfish

  /** `goldfish_memory`: session id to the remembered lines. */
  type Memory = map<string, seq<string>>

  /** Python's `xs[-n:]`. */
  function LastN(xs: seq<string>, n: nat): seq<string>
  {
    if |xs| <= n then xs else xs[|xs| - n..]
  }

  /** Lines 83-88: make sure the session has a list, then keep only its newest entry. */
  function Recall(mem: Memory, sid: string): (m: Memory)
    ensures sid in m && m == mem[sid := m[sid]]
    ensures |m[sid]| <= 1
    ensures sid in mem && |mem[sid]| > 0 ==> m[sid] == [mem[sid][|mem[sid]| - 1]]
    ensures sid !in mem || |mem[sid]| == 0 ==> m[sid] == []
  {
    var entries := if sid in mem then mem[sid] else [];
    mem[sid := if |entries| > 1 then entries[|entries| - 1..] else entries]
  }

  /** Lines 91-92: the remembered lines joined by newlines, then the user's line
      and the marker the model is to continue. After the trimming a session holds
      at most one line, so the prompt is that line (if any) and the new turn. */
  function GoldfishPrompt(entries: seq<string>, input: string): (r: string)
    ensures |entries| == 0 ==> r == "\nUser: " + input + "\nGoldfish:"
    ensures |entries| == 1 ==> r == entries[0] + "\nUser: " + input + "\nGoldfish:"
  {
    var context := if |entries| > 0 then JoinWith(LastN(entries, 3), "\n") else "";
    context + "\nUser: " + input + "\nGoldfish:"
  }

  /** The memory after one call: the session trimmed to its newest line, then, when
      a reply came back, this exchange appended. Before generating the session
      holds at most one line, so afterwards it holds at most three, the last two
      being this exchange; no other session changes. */
  function Memorize(mem: Memory, sid: string, input: string, reply: Option<string>): (m: Memory)
    ensures sid in m && m == mem[sid := m[sid]]
    ensures reply.None? ==> m[sid] == Recall(mem, sid)[sid]
    ensures reply.Some? ==>
      && 2 <= |m[sid]| <= 3
      && m[sid][..|m[sid]| - 2] == Recall(mem, sid)[sid]
      && m[sid][|m[sid]| - 2] == "User: " + input
      && m[sid][|m[sid]| - 1] == "Goldfish: " + reply.value
  {
    var m := Recall(mem, sid);
    match reply
    case None => m
    case Some(r) => m[sid := m[sid] + ["User: " + input, "Goldfish: " + r]]
  }

  /** The outcome of one goldfish call: the reply (`None` for the IndexError) and the
      memory afterwards, which the trimming has changed even when the call fails. */
  datatype Turn = Turn(reply: Option<string>, memory: Memory)

  /** `generate_goldfish_response` as written: the reply is `split("Goldfish:")[1]`. */
  function GoldfishAsWritten(mem: Memory, sid: string, input: string, pipeline: Pipeline): (t: Turn)
    ensures t.memory == Memorize(mem, sid, input, t.reply)
    ensures t.reply.None? <==> Free(pipeline(GoldfishPrompt(Recall(mem, sid)[sid], input), 150), GoldfishMarker)
    ensures t.reply.Some? ==> Stripped(t.reply.value)
  {
    var prompt := GoldfishPrompt(Recall(mem, sid)[sid], input);
    SecondPieceMissing(pipeline(prompt, 150), GoldfishMarker);
    var reply := Extract(pipeline(prompt, 150), GoldfishMarker);
    Turn(reply, Memorize(mem, sid, input, reply))
  }

  /** `generate_goldfish_response` with the reply taken from the pipeline's
      continuation of the prompt. */
  function GoldfishReply(mem: Memory, sid: string, input: string, pipeline: Pipeline): (t: Turn)
    ensures t.memory == Memorize(mem, sid, input, t.reply)
    ensures t.reply.Some? && Stripped(t.reply.value)
  {
    var prompt := GoldfishPrompt(Recall(mem, sid)[sid], input);
    var reply := Some(ReplyAfterPrompt(pipeline(prompt, 150), prompt, GoldfishMarker));
    Turn(reply, Memorize(mem, sid, input, reply))
  }

  /** Two answered calls on one session leave the first reply's line and the second
      exchange: the window the goldfish's memory keeps. */
  lemma MemoryWindow(mem: Memory, sid: string, i1: string, r1: string, i2: string, r2: string)
    ensures Memorize(Memorize(mem, sid, i1, Some(r1)), sid, i2, Some(r2))[sid]
              == ["Goldfish: " + r1, "User: " + i2, "Goldfish: " + r2]
  {
    var m1 := Memorize(mem, sid, i1, Some(r1));
    assert Recall(m1, sid)[sid] == ["Goldfish: " + r1];
    var lines2 := Memorize(m1, sid, i2, Some(r2))[sid];
    assert |lines2| == 3;
    assert lines2[0] == lines2[..|lines2| - 2][0];
  }

  /** The pipeline as the text-generation default runs it: the prompt, then `cont`. */
  function Echo(cont: string): Pipeline
  {
    (prompt: string, maxLength: nat) => prompt + cont
  }

  /** The text of an echoed later prompt between the remembered marker and the
      prompt's own: the rest of the remembered line and the user's new line. */
  function EchoedTurn(prev: string, input: string): string
  {
    " " + prev + "\nUser: " + input + "\n"
  }

  /** From the second call on, the remembered line "Goldfish: <previous reply>" puts
      the marker into the prompt ahead of the prompt's own, so the as-written reply
      is cut from the previous reply and the user's new line, whatever the model
      generated; when those hold no marker, it is all of them. */
  lemma GoldfishAsWrittenRepeatsMemory(mem: Memory, sid: string, input: string, prev: string, cont: string)
    requires sid in mem && |mem[sid]| > 0
    requires mem[sid][|mem[sid]| - 1] == "Goldfish: " + prev
    ensures GoldfishAsWritten(mem, sid, input, Echo(cont)).reply
              == Some(Strip(Before(EchoedTurn(prev, input), GoldfishMarker)))
    ensures Free(EchoedTurn(prev, input), GoldfishMarker) ==>
              GoldfishAsWritten(mem, sid, input, Echo(cont)).reply == Some(Strip(EchoedTurn(prev, input)))
  {
    var m := Recall(mem, sid);
    assert m[sid] == ["Goldfish: " + prev];
    var prompt := GoldfishPrompt(m[sid], input);
    var g := Echo(cont)(prompt, 150);
    assert g == prompt + cont;
    assert GoldfishAsWritten(mem, sid, input, Echo(cont)).reply == Extract(g, GoldfishMarker);
    SecondPromptPiece(prev, input, cont);
    IndexOfSpec(EchoedTurn(prev, input), GoldfishMarker);
  }

  /** The as-written extraction on the echoed prompt of a call whose memory is the
      line "Goldfish: <prev>". */
  lemma SecondPromptPiece(prev: string, input: string, cont: string)
    ensures SecondPiece(GoldfishPrompt(["Goldfish: " + prev], input) + cont, GoldfishMarker)
              == Some(Before(EchoedTurn(prev, input), GoldfishMarker))
  {
    SecondPromptShape(prev, input, cont);
    PieceAfterLeadingMarker(GoldfishMarker, EchoedTurn(prev, input), cont);
  }

  /** The echoed prompt of a call whose memory is the line "Goldfish: <prev>" opens
      with the marker. */
  lemma SecondPromptShape(prev: string, input: string, cont: string)
    ensures GoldfishPrompt(["Goldfish: " + prev], input) + cont
      == GoldfishMarker + (EchoedTurn(prev, input) + GoldfishMarker + cont)
  {
    assert LastN(["Goldfish: " + prev], 3) == ["Goldfish: " + prev];
    assert JoinWith(["Goldfish: " + prev], "\n") == "Goldfish: " + prev;
  }

  /** A text that opens with the marker and has it again after `x`: the second piece
      is the part of `x` before any marker, whatever follows. */
  lemma PieceAfterLeadingMarker(marker: string, x: string, cont: string)
    requires LastOnce(marker)
    ensures SecondPiece(marker + (x + marker + cont), marker) == Some(Before(x, marker))
  {
    var rest := x + marker + cont;
    IndexOfAtStart(marker, rest);
    assert (marker + rest)[|marker|..] == rest;
    BeforeMarkedEnd(x, marker, cont);
  }

  /** The as-written reply of a later call does not depend on the generated text. */
  lemma GoldfishAsWrittenIgnoresModel(mem: Memory, sid: string, input: string, prev: string, cont1: string, cont2: string)
    requires sid in mem && |mem[sid]| > 0
    requires mem[sid][|mem[sid]| - 1] == "Goldfish: " + prev
    ensures GoldfishAsWritten(mem, sid, input, Echo(cont1)).reply
              == GoldfishAsWritten(mem, sid, input, Echo(cont2)).reply
  {
    GoldfishAsWrittenRepeatsMemory(mem, sid, input, prev, cont1);
    GoldfishAsWrittenRepeatsMemory(mem, sid, input, prev, cont2);
  }

  /** With the reply read from the continuation, every call answers with what the
      model generated, whatever the session remembers. */
  lemma GoldfishReplyIsModelText(mem: Memory, sid: string, input: string, cont: string)
    ensures GoldfishReply(mem, sid, input, Echo(cont)).reply
              == Some(Strip(Split(cont, GoldfishMarker)[0]))
  {
    var m := Recall(mem, sid);
    var prompt := GoldfishPrompt(m[sid], input);
    ContinuationOfEcho(prompt, cont, GoldfishMarker);
  }

  /** On a session's first call the prompt holds a single marker unless the user
      typed one, and then the two readings agree. */
  lemma GoldfishFirstCallAgrees(mem: Memory, sid: string, input: string, cont: string)
    requires sid !in mem || |mem[sid]| == 0
    requires Free("\nUser: " + input + "\n", GoldfishMarker)
    ensures GoldfishAsWritten(mem, sid, input, Echo(cont)).reply
              == GoldfishReply(mem, sid, input, Echo(cont)).reply
  {
    var m := Recall(mem, sid);
    var prompt := GoldfishPrompt(m[sid], input);
    assert prompt == ("\nUser: " + input + "\n") + GoldfishMarker;
    ExtractMatchesContinuation("\nUser: " + input + "\n", GoldfishMarker, cont);
  }

  /** Two successful calls on one session leave the second reply's exchange and the
      first reply's line. */
  lemma GoldfishTwoTurns(mem: Memory, sid: string, i1: string, i2: string, p1: Pipeline, p2: Pipeline)
    ensures var t1 := GoldfishReply(mem, sid, i1, p1);
      var t2 := GoldfishReply(t1.memory, sid, i2, p2);
      t2.memory[sid] == ["Goldfish: " + t1.reply.value, "User: " + i2, "Goldfish: " + t2.reply.value]
  {
    var t1 := GoldfishReply(mem, sid, i1, p1);
    var t2 := GoldfishReply(t1.memory, sid, i2, p2);
    MemoryWindow(mem, sid, i1, t1.reply.value, i2, t2.reply.value);
  }

  /** Every session remembers at most three lines. */
  ghost predicate Bounded(mem: Memory)
  {
    forall k :: k in mem ==> |mem[k]| <= 3
  }

  // ---------------------------------------------------------------- sloth

  function SlothPrompt(input: string): string
  {
    "User: " + input + "\nSloth:"
  }

  /** What the sloth's generator produces: a character, or a sleep. */
  datatype SlothEvent = Yield(c: char) | Pause

  /** What the loop of lines 124-128 emits for character `i`: the character, then a
      sleep when `i > 0` and the coin (`random.random() < 0.3`) comes up. */
  function SlothStep(reply: string, coin: nat -> bool, i: nat): (r: seq<SlothEvent>)
    requires i < |reply|
    ensures 1 <= |r| <= 2 && r[0] == Yield(reply[i])
    ensures |r| == 2 <==> i > 0 && coin(i)
    ensures |r| == 2 ==> r[1] == Pause
  {
    [Yield(reply[i])] + (if i > 0 && coin(i) then [Pause] else [])
  }

  /** The events for the first `n` characters of the reply. */
  function SlothEventsUpTo(reply: string, coin: nat -> bool, n: nat): seq<SlothEvent>
    requires n <= |reply|
  {
    if n == 0 then [] else SlothEventsUpTo(reply, coin, n - 1) + SlothStep(reply, coin, n - 1)
  }

  /** The whole stream: with the sleeps dropped, exactly the reply. */
  function SlothEvents(reply: string, coin: nat -> bool): (r: seq<SlothEvent>)
    ensures Yields(r) == reply
  {
    SlothYieldsReply(reply, coin, |reply|);
    assert reply[..|reply|] == reply;
    SlothEventsUpTo(reply, coin, |reply|)
  }

  /** The characters a client receives, in order: the stream with the sleeps dropped. */
  function Yields(events: seq<SlothEvent>): string
  {
    if |events| == 0 then ""
    else (match events[0] case Yield(c) => [c] case Pause => "") + Yields(events[1..])
  }

  lemma {:induction false} YieldsAppend(a: seq<SlothEvent>, b: seq<SlothEvent>)
    ensures Yields(a + b) == Yields(a) + Yields(b)
  {
    if |a| > 0 {
      assert (a + b)[1..] == a[1..] + b;
      YieldsAppend(a[1..], b);
    } else {
      assert a + b == b;
    }
  }

  lemma SlothStepYields(reply: string, coin: nat -> bool, i: nat)
    requires i < |reply|
    ensures Yields(SlothStep(reply, coin, i)) == [reply[i]]
  {
    var step := SlothStep(reply, coin, i);
    assert step[1..] == (if i > 0 && coin(i) then [Pause] else []);
    if i > 0 && coin(i) {
      assert [Pause][1..] == [];
      assert Yields([Pause]) == "";
    }
  }

  /** The stream yields the reply's characters in order, and only them. */
  lemma {:induction false} SlothYieldsReply(reply: string, coin: nat -> bool, n: nat)
    requires n <= |reply|
    ensures Yields(SlothEventsUpTo(reply, coin, n)) == reply[..n]
  {
    if n > 0 {
      SlothYieldsReply(reply, coin, n - 1);
      YieldsAppend(SlothEventsUpTo(reply, coin, n - 1), SlothStep(reply, coin, n - 1));
      SlothStepYields(reply, coin, n - 1);
      assert reply[..n] == reply[..n - 1] + [reply[n - 1]];
    }
  }

  lemma {:induction false} SlothEventsPrefix(reply: string, coin: nat -> bool, n: nat, m: nat)
    requires n <= m <= |reply|
    ensures SlothEventsUpTo(reply, coin, n) <= SlothEventsUpTo(reply, coin, m)
    decreases m - n
  {
    if n < m {
      SlothEventsPrefix(reply, coin, n, m - 1);
    }
  }

  /** The first two characters go out with no sleep before or between them. */
  lemma SlothStartsAtOnce(reply: string, coin: nat -> bool)
    requires |reply| >= 1
    ensures var ev := SlothEvents(reply, coin);
      |ev| >= 1 && ev[0] == Yield(reply[0]) &&
      (|reply| >= 2 ==> |ev| >= 2 && ev[1] == Yield(reply[1]))
  {
    SlothEventsPrefix(reply, coin, 1, |reply|);
    assert SlothEventsUpTo(reply, coin, 1) == [Yield(reply[0])];
    if |reply| >= 2 {
      SlothEventsPrefix(reply, coin, 2, |reply|);
      assert SlothEventsUpTo(reply, coin, 2)
          == [Yield(reply[0]), Yield(reply[1])] + (if coin(1) then [Pause] else []);
    }
  }

  /** A stream of one-character chunks glues back to the reply. */
  lemma SlothChunksConcat(reply: string)
    ensures Concat(seq(|reply|, i requires 0 <= i < |reply| => [reply[i]])) == reply
  {
    ConcatOfChars(reply);
  }

  // ---------------------------------------------------------------- dispatch

  /** The body of a `/chat` request. */
  datatype ChatRequest = ChatRequest(message: string, model: string)

  /** The random choices one request may make. */
  datatype Dice = Dice(pick: nat -> nat, emojiPick: nat, coin: nat -> bool)

  /** What the endpoint answers: `{"response": ...}`, a character stream (cut short
      when the generator raises), an HTTP error, or an unhandled exception (500). */
  datatype Response =
    | JsonBody(response: string)
    | Stream(events: seq<SlothEvent>, broken: bool)
    | HttpError(status: int, detail: string)
    | InternalError

  /** The cat's answer: the meows, or the 500 of the IndexError. */
  function CatResponse(req: ChatRequest, pipeline: Pipeline, dice: Dice): (r: Response)
    ensures var generated := pipeline(CatPrompt(req.message), 100);
      && (r.JsonBody? <==> !Free(generated, CatMarker))
      && (r.JsonBody? ==> Some(r.response) == CatReply(req.message, pipeline, dice.pick, dice.emojiPick))
      && (!r.JsonBody? ==> r == InternalError)
  {
    CatReplyOutcome(req.message, pipeline, dice.pick, dice.emojiPick);
    var reply := CatReply(req.message, pipeline, dice.pick, dice.emojiPick);
    if reply.Some? then JsonBody(reply.value) else InternalError
  }

  /** The sloth's answer: the character stream, cut short at once by the IndexError
      that its generator raises on the first read. */
  function SlothResponse(req: ChatRequest, pipeline: Pipeline, dice: Dice): (r: Response)
    ensures var generated := pipeline(SlothPrompt(req.message), 100);
      && r.Stream?
      && (r.broken <==> Free(generated, SlothMarker))
      && (r.broken ==> r.events == [])
      && (!r.broken ==> Some(Yields(r.events)) == Extract(generated, SlothMarker))
  {
    SecondPieceMissing(pipeline(SlothPrompt(req.message), 100), SlothMarker);
    var reply := Extract(pipeline(SlothPrompt(req.message), 100), SlothMarker);
    if reply.Some? then Stream(SlothEvents(reply.value, dice.coin), false) else Stream([], true)
  }

  /** The goldfish's answer and memory after one turn. */
  function GoldfishResponse(t: Turn): (r: (Response, Memory))
    ensures r.1 == t.memory
    ensures r.0.JsonBody? <==> t.reply.Some?
    ensures r.0.JsonBody? ==> Some(r.0.response) == t.reply
    ensures !r.0.JsonBody? ==> r.0 == InternalError
  {
    (if t.reply.Some? then JsonBody(t.reply.value) else InternalError, t.memory)
  }

  /** `chat_endpoint` as written, with the goldfish's session id given explicitly. */
  function ChatEndpoint(req: ChatRequest, sid: string, mem: Memory, pipeline: Pipeline, dice: Dice)
    : (r: (Response, Memory))
    ensures r.0.HttpError? <==> ParsePersona(req.model).None?
    ensures r.0.HttpError? ==> r.0 == HttpError(400, "Invalid model type")
    ensures ParsePersona(req.model) == Some(Goldfish) ==>
      var generated := pipeline(GoldfishPrompt(Recall(mem, sid)[sid], req.message), 150);
      && (r.0.JsonBody? <==> !Free(generated, GoldfishMarker))
      && (!r.0.JsonBody? ==> r.0 == InternalError)
      && (r.0.JsonBody? ==> Some(r.0.response) == GoldfishAsWritten(mem, sid, req.message, pipeline).reply)
    ensures ParsePersona(req.model) == Some(Cat) ==>
      var generated := pipeline(CatPrompt(req.message), 100);
      && (r.0.JsonBody? <==> !Free(generated, CatMarker))
      && (r.0.JsonBody? ==> Some(r.0.response) == CatReply(req.message, pipeline, dice.pick, dice.emojiPick))
      && (!r.0.JsonBody? ==> r.0 == InternalError)
    ensures ParsePersona(req.model) == Some(Sloth) ==>
      var generated := pipeline(SlothPrompt(req.message), 100);
      && r.0.Stream?
      && (r.0.broken <==> Free(generated, SlothMarker))
      && (r.0.broken ==> r.0.events == [])
      && (!r.0.broken ==> Some(Yields(r.0.events)) == Extract(generated, SlothMarker))
  {
    match ParsePersona(req.model)
    case Some(Cat) => (CatResponse(req, pipeline, dice), mem)
    case Some(Goldfish) => GoldfishResponse(GoldfishAsWritten(mem, sid, req.message, pipeline))
    case Some(Sloth) => (SlothResponse(req, pipeline, dice), mem)
    case None => (HttpError(400, "Invalid model type"), mem)
  }

  /** `chat_endpoint` with the goldfish's reply read from the continuation: the
      goldfish then always answers. */
  function CorrectedChatEndpoint(req: ChatRequest, sid: string, mem: Memory, pipeline: Pipeline, dice: Dice)
    : (r: (Response, Memory))
    ensures r.0.HttpError? <==> ParsePersona(req.model).None?
    ensures ParsePersona(req.model) == Some(Goldfish) ==>
      && r.0.JsonBody? && Stripped(r.0.response)
      && Some(r.0.response) == GoldfishReply(mem, sid, req.message, pipeline).reply
    ensures ParsePersona(req.model) != Some(Goldfish) ==> r == ChatEndpoint(req, sid, mem, pipeline, dice)
  {
    match ParsePersona(req.model)
    case Some(Cat) => (CatResponse(req, pipeline, dice), mem)
    case Some(Goldfish) => GoldfishResponse(GoldfishReply(mem, sid, req.message, pipeline))
    case Some(Sloth) => (SlothResponse(req, pipeline, dice), mem)
    case None => (HttpError(400, "Invalid model type"), mem)
  }

  /** Only a goldfish call touches the memory, and then only its own session, which
      ends up with at most three lines; every other session is left as it was. */
  lemma ChatEndpointMemory(req: ChatRequest, sid: string, mem: Memory, pipeline: Pipeline, dice: Dice)
    ensures var m := ChatEndpoint(req, sid, mem, pipeline, dice).1;
      && (ParsePersona(req.model) != Some(Goldfish) ==> m == mem)
      && (ParsePersona(req.model) == Some(Goldfish) ==>
            && m == GoldfishAsWritten(mem, sid, req.message, pipeline).memory
            && sid in m && m == mem[sid := m[sid]] && |m[sid]| <= 3)
  {
    if ParsePersona(req.model) == Some(Goldfish) {
      var t := GoldfishAsWritten(mem, sid, req.message, pipeline);
      assert ChatEndpoint(req, sid, mem, pipeline, dice).1 == t.memory;
      assert t.memory == Memorize(mem, sid, req.message, t.reply);
    }
  }

  /** The session of the example: one remembered reply, "hi". */
  const ExampleMemory: Memory := map["s" := ["Goldfish: hi"]]

  /** A second goldfish call with the input "ok", on a model that answers " there":
      as written, the endpoint answers with the remembered reply and the user's line;
      corrected, with the model's answer. */
  lemma GoldfishEndpointExample(dice: Dice)
    ensures ChatEndpoint(ChatRequest("ok", "goldfish"), "s", ExampleMemory, Echo(" there"), dice).0
              == JsonBody("hi\nUser: ok")
    ensures CorrectedChatEndpoint(ChatRequest("ok", "goldfish"), "s", ExampleMemory, Echo(" there"), dice).0
              == JsonBody("there")
  {
    var req := ChatRequest("ok", "goldfish");
    assert ParsePersona(req.model) == Some(Goldfish);
    ExampleAsWritten();
    assert ChatEndpoint(req, "s", ExampleMemory, Echo(" there"), dice)
        == GoldfishResponse(GoldfishAsWritten(ExampleMemory, "s", "ok", Echo(" there")));
    ExampleCorrected();
    assert CorrectedChatEndpoint(req, "s", ExampleMemory, Echo(" there"), dice)
        == GoldfishResponse(GoldfishReply(ExampleMemory, "s", "ok", Echo(" there")));
  }

  lemma ExampleAsWritten()
    ensures GoldfishAsWritten(ExampleMemory, "s", "ok", Echo(" there")).reply == Some("hi\nUser: ok")
  {
    GoldfishAsWrittenRepeatsMemory(ExampleMemory, "s", "ok", "hi", " there");
    ExampleTurnFree();
    ExampleTurnStrip();
  }

  lemma ExampleCorrected()
    ensures GoldfishReply(ExampleMemory, "s", "ok", Echo(" there")).reply == Some("there")
  {
    GoldfishReplyIsModelText(ExampleMemory, "s", "ok", " there");
    ExampleAnswerStrip();
  }

  lemma ExampleTurnFree()
    ensures Free(EchoedTurn("hi", "ok"), GoldfishMarker)
  {
    var t := EchoedTurn("hi", "ok");
    assert |t| == 13;
    forall i: nat
      ensures !OccursAt(t, GoldfishMarker, i)
    {
      if i + 9 <= 13 {
        assert t[i..i + 9][0] == t[i];
        assert t[i] != 'G';
      }
    }
  }

  lemma ExampleTurnStrip()
    ensures Strip(EchoedTurn("hi", "ok")) == "hi\nUser: ok"
  {
    assert EchoedTurn("hi", "ok") == " " + "hi\nUser: ok" + "\n";
    assert Stripped("hi\nUser: ok");
    StripPadded(" ", "hi\nUser: ok", "\n");
  }

  lemma ExampleAnswerStrip()
    ensures Strip(Split(" there", GoldfishMarker)[0]) == "there"
  {
    IndexOfSpec(" there", GoldfishMarker);
    assert Split(" there", GoldfishMarker)[0] == " " + "there" + "";
    assert Stripped("there");
    StripPadded(" ", "there", "");
  }

  /** A call leaves every session with at most three remembered lines when every
      session had at most three before. */
  lemma MemorizeKeepsBounded(mem: Memory, sid: string, input: string, reply: Option<string>)
    requires Bounded(mem)
    ensures Bounded(Memorize(mem, sid, input, reply))
  {
    var m := Memorize(mem, sid, input, reply);
    forall k | k in m
      ensures |m[k]| <= 3
    {
      if k != sid {
        assert m[k] == mem[k];
      }
    }
  }

  /** The endpoint keeps the bound on every session's memory. */
  lemma ChatEndpointKeepsBounded(req: ChatRequest, sid: string, mem: Memory, pipeline: Pipeline, dice: Dice)
    requires Bounded(mem)
    ensures Bounded(ChatEndpoint(req, sid, mem, pipeline, dice).1)
    ensures Bounded(CorrectedChatEndpoint(req, sid, mem, pipeline, dice).1)
  {
    if ParsePersona(req.model) == Some(Goldfish) {
      var t := GoldfishAsWritten(mem, sid, req.message, pipeline);
      MemorizeKeepsBounded(mem, sid, req.message, t.reply);
      var u := GoldfishReply(mem, sid, req.message, pipeline);
      MemorizeKeepsBounded(mem, sid, req.message, u.reply);
    }
  }
}

=== FILE: common.dfy ===
/** Shared vocabulary: an optional value and the three chat personas. */
module Common {

  /** A value that may be missing (a missing map key, a failed lookup, an error). */
  datatype Option<T> = None | Some(value: T)

  /** The personas a user can chat with (`ModelType` in types.ts). */
  datatype Persona = Cat | Goldfish | Sloth

  /** The wire name of a persona, as the front ends send it and the backend compares it. */
  function PersonaId(p: Persona): string
  {
    match p
    case Cat => "cat"
    case Goldfish => "goldfish"
    case Sloth => "sloth"
  }

  /** Reads a wire name back; every other string names no persona. */
  function ParsePersona(s: string): (r: Option<Persona>)
    ensures r.Some? ==> PersonaId(r.value) == s
    ensures r.None? <==> forall p: Persona :: PersonaId(p) != s
  {
    if s == "cat" then Some(Cat)
    else if s == "goldfish" then Some(Goldfish)
    else if s == "sloth" then Some(Sloth)
    else None
  }

  /** Wire names are distinct, so parsing undoes naming. */
  lemma ParsePersonaId(p: Persona)
    ensures ParsePersona(PersonaId(p)) == Some(p)
  {
  }
}

=== FILE: composer.dfy ===
/** The input box and message pane of the App.tsx front end
    (components/ChatInterface.tsx): the send guard, the Enter-key rule, and which of
    the welcome screen and the typing bubble is shown. */
module Composer {
  import opened Common
  import opened Text
  import App
  import GeminiService

  /** A send is allowed when the trimmed input is non-empty and no reply is loading. */
  predicate CanSend(input: string, loading: bool)
  {
    Strip(input) != "" && !loading
  }

  /** What `handleSend` does: the text passed to `onSendMessage`, if any, and the
      input box afterwards. */
  datatype Outcome = Outcome(sent: Option<string>, input: string)

  /** `handleSend`: forward the raw, untrimmed input and clear the box, or do nothing. */
  function HandleSend(input: string, loading: bool): (r: Outcome)
    ensures r.sent.Some? <==> (!AllSpace(input) && !loading)
    ensures r.sent.Some? ==> r.sent.value == input && r.input == ""
    ensures r.sent.None? ==> r.input == input
  {
    if CanSend(input, loading) then Outcome(Some(input), "") else Outcome(None, input)
  }

  /** A key press in the text area. */
  datatype Key = Key(name: string, shift: bool)

  /** `handleKeyDown`: the key press and the send it may trigger. `prevented`
      says whether the browser's default (a new line) is suppressed. */
  datatype KeyOutcome = KeyOutcome(prevented: bool, outcome: Outcome)

  function HandleKeyDown(key: Key, input: string, loading: bool): (r: KeyOutcome)
    ensures r.prevented <==> (key.name == "Enter" && !key.shift)
    ensures r.prevented ==> r.outcome == HandleSend(input, loading)
    ensures !r.prevented ==> r.outcome == Outcome(None, input)
  {
    if key.name == "Enter" && !key.shift then KeyOutcome(true, HandleSend(input, loading))
    else KeyOutcome(false, Outcome(None, input))
  }

  /** Shift+Enter never sends and never changes the input. */
  lemma ShiftEnterDoesNotSend(input: string, loading: bool)
    ensures HandleKeyDown(Key("Enter", true), input, loading).outcome.sent.None?
    ensures HandleKeyDown(Key("Enter", true), input, loading).outcome.input == input
  {
  }

  /** The welcome screen replaces the message list exactly when the log is empty. */
  predicate ShowsWelcome(messages: seq<App.Message>)
  {
    |messages| == 0
  }

  /** The typing bubble: shown while loading when the last message is the user's. */
  predicate ShowsTyping(loading: bool, messages: seq<App.Message>)
  {
    loading && |messages| > 0 && messages[|messages| - 1].sender == App.User
  }

  /** Right after a send the bubble appears for the cat and the goldfish, but not
      for the sloth, whose empty placeholder is already the last message. */
  lemma TypingAfterSend(s: App.State, text: string, userId: int, aiId: int)
    ensures var r := App.SendMessage(s, text, userId, aiId);
      ShowsTyping(r.loading, r.messages) <==> s.selected != Sloth
  {
  }

  /** Once an answer is appended, the bubble is gone and the log is not empty. */
  lemma NoTypingAfterAnswer(s: App.State, aiId: int, model: Persona, answer: GeminiService.Generation)
    ensures var r := App.ReceiveAnswer(s, aiId, model, answer);
      !ShowsTyping(r.loading, r.messages) && !ShowsWelcome(r.messages)
  {
  }

  /** A persona switch brings the welcome screen back and hides the bubble. */
  lemma WelcomeAfterSwitch(s: App.State, p: Persona, chatId: int)
    ensures var r := App.SelectModel(s, p, chatId);
      ShowsWelcome(r.messages) && !ShowsTyping(r.loading, r.messages)
  {
  }
}

=== FILE: frontend_chat.dfy ===
/** The Next.js chat page (frontend/types.ts): a guarded submit that appends the
    user's message, posts it to `/api/chat`, and then either appends the JSON answer,
    or, for the sloth, appends an empty placeholder and overwrites its content with
    the text accumulated from the response stream chunk by chunk. Every failure
    appends one fixed apology. The network answer is a parameter (`Reply`). */
module FrontendChat {
  import opened Common
  import opened Text

  datatype Role = User | Assistant

  /** A chat message of this page; ids are `Date.now().toString()` and may collide. */
  datatype ChatMessage = ChatMessage(id: string, content: string, role: Role, model: Option<Persona>)

  datatype State = State(messages: seq<ChatMessage>, input: string, loading: bool, active: Persona)

  const Greeting := "Hello! I'm ChatZoo. Select a mode below to start chatting!"

  /** The content of the message appended when anything in the exchange throws. */
  const ErrorReply := "Sorry, I had trouble responding. Try again?"

  function Init(): (s: State)
    ensures s.messages == [ChatMessage("1", Greeting, Assistant, Some(Cat))]
    ensures s.input == "" && !s.loading && s.active == Cat
  {
    State([ChatMessage("1", Greeting, Assistant, Some(Cat))], "", false, Cat)
  }

  /** A mode button: only the active persona changes; the log is kept. */
  function SelectMode(s: State, p: Persona): (r: State)
    ensures r.active == p && r.messages == s.messages && r.input == s.input && r.loading == s.loading
  {
    s.(active := p)
  }

  /** What `fetch('/api/chat')` gave back. `FetchFailed` is a rejected fetch; otherwise
      `ok` and `hasBody` are the status check and the presence of a body, `json` the
      parsed `data.response` (missing when `response.json()` throws), `chunks` the
      decoded reads of the body stream, and `readFails` whether a read then throws. */
  datatype Reply =
    | FetchFailed
    | Answered(ok: bool, hasBody: bool, json: Option<string>, chunks: seq<string>, readFails: bool)

  /** The three `Date.now().toString()` ids of one submission: the user's message,
      the stream placeholder and the answer or apology. */
  datatype Ids = Ids(user: string, placeholder: string, reply: string)

  /** The body posted to `/api/chat`. */
  datatype Request = Request(message: string, model: string)

  /** The guard of `handleSubmit`. */
  predicate CanSubmit(s: State)
  {
    Strip(s.input) != "" && !s.loading
  }

  /** `prev.map(msg => msg.id === id ? {...msg, content} : msg)`. */
  function SetContent(msgs: seq<ChatMessage>, id: string, content: string): seq<ChatMessage>
  {
    seq(|msgs|, i requires 0 <= i < |msgs| =>
      if msgs[i].id == id then msgs[i].(content := content) else msgs[i])
  }

  /** The update keeps the log's length and every message's id, role and persona;
      the content becomes `content` exactly where the id matches. */
  lemma SetContentKeeps(msgs: seq<ChatMessage>, id: string, content: string)
    ensures var r := SetContent(msgs, id, content);
      && |r| == |msgs|
      && forall i :: 0 <= i < |msgs| ==>
           && r[i] == msgs[i].(content := r[i].content)
           && (msgs[i].id == id ==> r[i].content == content)
           && (msgs[i].id != id ==> r[i] == msgs[i])
  {
  }

  /** Overwriting is forgetful: only the last content written stays, so a render
      that skips an intermediate write shows the same final log. */
  lemma SetContentLastWins(msgs: seq<ChatMessage>, id: string, a: string, b: string)
    ensures SetContent(SetContent(msgs, id, a), id, b) == SetContent(msgs, id, b)
  {
  }

  function Apology(id: string, model: Persona): ChatMessage
  {
    ChatMessage(id, ErrorReply, Assistant, Some(model))
  }

  /** `handleStreamResponse`: append the placeholder, then after every chunk set the
      content of each message carrying the placeholder's id to all text read so far.
      `shown` lists the placeholder's content after each chunk. */
  method HandleStreamResponse(base: seq<ChatMessage>, id: string, chunks: seq<string>)
    returns (msgs: seq<ChatMessage>, shown: seq<string>)
    ensures |msgs| == |base| + 1
    ensures msgs[|base|] == ChatMessage(id, Concat(chunks), Assistant, Some(Sloth))
    ensures forall j :: 0 <= j < |base| && base[j].id != id ==> msgs[j] == base[j]
    ensures forall j :: 0 <= j < |base| && base[j].id == id ==>
              msgs[j] == (if |chunks| == 0 then base[j] else base[j].(content := Concat(chunks)))
    ensures |shown| == |chunks|
    ensures forall k :: 0 <= k < |chunks| ==> shown[k] == Concat(chunks[..k + 1])
    ensures forall k, k' :: 0 <= k <= k' < |shown| ==> shown[k] <= shown[k']
  {
    var placeholder := ChatMessage(id, "", Assistant, Some(Sloth));
    msgs := base + [placeholder];
    var full := "";
    shown := [];
    var i := 0;
    while i < |chunks|
      invariant 0 <= i <= |chunks|
      invariant full == Concat(chunks[..i])
      invariant i == 0 ==> msgs == base + [placeholder]
      invariant i > 0 ==> msgs == SetContent(base + [placeholder], id, full)
      invariant |shown| == i
      invariant forall k :: 0 <= k < i ==> shown[k] == Concat(chunks[..k + 1])
    {
      assert chunks[..i + 1][..i] == chunks[..i];
      full := full + chunks[i];
      msgs := SetContent(base + [placeholder], id, full);
      shown := shown + [full];
      i := i + 1;
    }
    assert chunks[..i] == chunks;
    forall k, k' | 0 <= k <= k' < |shown|
      ensures shown[k] <= shown[k']
    {
      ConcatPrefix(chunks, k + 1, k' + 1);
    }
  }

  /** The input box's `onChange`: only the input changes. */
  function EditInput(s: State, text: string): (r: State)
    ensures r.input == text && r.messages == s.messages && r.loading == s.loading && r.active == s.active
  {
    s.(input := text)
  }

  /** The part of `handleSubmit` before the first `await`: when the guard passes,
      append the user's message, clear the input and set loading; otherwise do
      nothing. */
  function Submit(s: State, userId: string): (r: State)
    ensures !CanSubmit(s) ==> r == s
    ensures CanSubmit(s) ==>
      && r.messages == s.messages + [ChatMessage(userId, s.input, User, None)]
      && r.input == "" && r.loading && r.active == s.active
  {
    if CanSubmit(s) then State(s.messages + [ChatMessage(userId, s.input, User, None)], "", true, s.active)
    else s
  }

  /** While a reply is pending, a second submission is turned away by the loading
      half of the guard, whatever has been typed or selected meanwhile. */
  lemma SubmitWhilePending(s: State, userId: string, text: string, p: Persona, userId': string)
    requires CanSubmit(s)
    ensures var q := SelectMode(EditInput(Submit(s, userId), text), p);
      && q.loading && !CanSubmit(q)
      && Submit(q, userId') == q
  {
  }

  /** The part of `handleSubmit` after the `fetch`, run to the end of its `finally`,
      on the state `p` the page has by then. `model` is the persona captured when the
      submission started; every message is appended to the messages of `p`, and
      `shown` lists the placeholder's successive contents on the stream path. */
  method Resolve(p: State, model: Persona, ids: Ids, reply: Reply)
    returns (r: State, shown: seq<string>)
    ensures r.input == p.input && !r.loading && r.active == p.active
    ensures |r.messages| > |p.messages|
    ensures forall j :: 0 <= j < |p.messages| && !(model == Sloth && p.messages[j].id == ids.placeholder) ==>
              r.messages[j] == p.messages[j]
    ensures reply.FetchFailed? || !reply.ok || !reply.hasBody ==>
              r.messages == p.messages + [Apology(ids.reply, model)] && shown == []
    ensures reply.Answered? && reply.ok && reply.hasBody && model != Sloth ==>
              && shown == []
              && r.messages == p.messages +
                   [match reply.json
                    case Some(text) => ChatMessage(ids.reply, text, Assistant, Some(model))
                    case None => Apology(ids.reply, model)]
    ensures reply.Answered? && reply.ok && reply.hasBody && model == Sloth ==>
              && |r.messages| == |p.messages| + (if reply.readFails then 2 else 1)
              && r.messages[|p.messages|] ==
                   ChatMessage(ids.placeholder, Concat(reply.chunks), Assistant, Some(Sloth))
              && (forall j :: 0 <= j < |p.messages| && p.messages[j].id == ids.placeholder ==>
                    r.messages[j] == (if |reply.chunks| == 0 then p.messages[j]
                                      else p.messages[j].(content := Concat(reply.chunks))))
              && (reply.readFails ==> r.messages[|p.messages| + 1] == Apology(ids.reply, Sloth))
              && |shown| == |reply.chunks|
              && (forall k :: 0 <= k < |shown| ==> shown[k] == Concat(reply.chunks[..k + 1]))
  {
    var msgs := p.messages;
    shown := [];
    if reply.FetchFailed? || !reply.ok || !reply.hasBody {
      msgs := msgs + [Apology(ids.reply, model)];
    } else if model == Sloth {
      msgs, shown := HandleStreamResponse(p.messages, ids.placeholder, reply.chunks);
      if reply.readFails {
        msgs := msgs + [Apology(ids.reply, Sloth)];
      }
    } else {
      match reply.json
      case Some(text) =>
        msgs := msgs + [ChatMessage(ids.reply, text, Assistant, Some(model))];
      case None =>
        msgs := msgs + [Apology(ids.reply, model)];
    }
    r := p.(messages := msgs, loading := false);
  }

  /** `handleSubmit` with nothing happening during its `await`s: `Submit` followed at
      once by `Resolve`. Returns the final state, the request posted (none when the
      guard rejects), and the placeholder's successive contents on the stream path. */
  method HandleSubmit(s: State, ids: Ids, reply: Reply)
    returns (r: State, posted: Option<Request>, shown: seq<string>)
    ensures !CanSubmit(s) ==> r == s && posted.None? && shown == []
    ensures CanSubmit(s) ==>
      && posted == Some(Request(s.input, PersonaId(s.active)))
      && r.input == "" && !r.loading && r.active == s.active
      && |r.messages| > |s.messages| + 1
      && (forall j :: 0 <= j < |s.messages| && !(s.active == Sloth && s.messages[j].id == ids.placeholder) ==>
            r.messages[j] == s.messages[j])
      && (s.active != Sloth || ids.user != ids.placeholder ==>
            r.messages[|s.messages|] == ChatMessage(ids.user, s.input, User, None))
    ensures CanSubmit(s) && (reply.FetchFailed? || !reply.ok || !reply.hasBody) ==>
              r.messages == s.messages + [ChatMessage(ids.user, s.input, User, None), Apology(ids.reply, s.active)]
    ensures CanSubmit(s) && reply.Answered? && reply.ok && reply.hasBody && s.active != Sloth ==>
              r.messages == s.messages + [ChatMessage(ids.user, s.input, User, None),
                (match reply.json
                 case Some(text) => ChatMessage(ids.reply, text, Assistant, Some(s.active))
                 case None => Apology(ids.reply, s.active))]
    ensures CanSubmit(s) && reply.Answered? && reply.ok && reply.hasBody && s.active == Sloth ==>
              var before := s.messages + [ChatMessage(ids.user, s.input, User, None)];
              && |r.messages| == |s.messages| + (if reply.readFails then 3 else 2)
              && r.messages[|s.messages| + 1] ==
                   ChatMessage(ids.placeholder, Concat(reply.chunks), Assistant, Some(Sloth))
              && (forall j :: 0 <= j < |before| && before[j].id == ids.placeholder ==>
                    r.messages[j] == (if |reply.chunks| == 0 then before[j]
                                      else before[j].(content := Concat(reply.chunks))))
              && (reply.readFails ==> r.messages[|s.messages| + 2] == Apology(ids.reply, Sloth))
              && |shown| == |reply.chunks|
              && (forall k :: 0 <= k < |shown| ==> shown[k] == Concat(reply.chunks[..k + 1]))
  {
    if !CanSubmit(s) {
      return s, None, [];
    }
    var pending := Submit(s, ids.user);
    posted := Some(Request(s.input, PersonaId(s.active)));
    r, shown := Resolve(pending, s.active, ids, reply);
  }
}

=== FILE: gemini_service.dfy ===
/** The answer source of the App.tsx front end (services/geminiService.ts): a system
    instruction per persona, a one-shot answer and a chunked stream, both of which
    turn any error of the generative API into one fixed fallback text. The API
    itself is a parameter: a `Generation` or a `StreamRun` says what it did. */
module GeminiService {
  import opened Common

  const CatInstruction := "You are a cat. You can only respond with various 'meows' and cat-related emojis like 😺, 😸, 😹, 😻, 😼, 😽, 🙀, 😿, 😾, 🐾, ᓚᘏᗢ. Your responses should be short and expressive of cat behavior."
  const GoldfishInstruction := "You are a friendly chatbot with the memory of a goldfish. You cannot remember any previous parts of the conversation. Respond to every prompt as if it's the very first one you've ever seen. Keep your answers concise, cheerful, and slightly forgetful."
  const SlothInstruction := "You are a wise and thoughtful sloth. Respond to prompts very, very slowly and deliberately. Your answers should be simple, profound, and delivered at a leisurely pace, often with pauses indicated by ellipses."
  const DefaultInstruction := "You are a helpful assistant."

  /** The text both entry points hand back in place of an answer when the API throws. */
  const ThinkingFallback := "Sorry, I'm having trouble thinking right now."

  /** `getSystemInstruction`: the model name arrives as a string at run time, so
      anything that is not a persona's wire name gets the default instruction. */
  function SystemInstruction(model: string): (r: string)
    ensures r == DefaultInstruction <==> ParsePersona(model).None?
    ensures ParsePersona(model) == Some(Cat) ==> r == CatInstruction
    ensures ParsePersona(model) == Some(Goldfish) ==> r == GoldfishInstruction
    ensures ParsePersona(model) == Some(Sloth) ==> r == SlothInstruction
  {
    match ParsePersona(model)
    case Some(Cat) => CatInstruction
    case Some(Goldfish) => GoldfishInstruction
    case Some(Sloth) => SlothInstruction
    case None => DefaultInstruction
  }

  /** Different personas are instructed differently. */
  lemma InstructionsDistinct(p: Persona, q: Persona)
    requires p != q
    ensures SystemInstruction(PersonaId(p)) != SystemInstruction(PersonaId(q))
  {
    ParsePersonaId(p);
    ParsePersonaId(q);
  }

  /** What one `generateContent` call did: produced a text, or threw. */
  datatype Generation = Answered(text: string) | Threw

  /** `getAiResponse`: the generated text, or the fallback when the call throws. */
  function GetAiResponse(g: Generation): (r: string)
    ensures g.Answered? ==> r == g.text
    ensures g.Threw? ==> r == ThinkingFallback
  {
    match g
    case Answered(text) => text
    case Threw => ThinkingFallback
  }

  /** What one `generateContentStream` call did: the texts of the chunks it yielded,
      in order, and whether it then threw (with no chunks when opening failed). */
  datatype StreamRun = StreamRun(chunks: seq<string>, throws: bool)

  /** Reference definition of the `onChunk` calls of a run: every chunk in stream
      order, then the fallback once if the run threw. */
  function Delivered(run: StreamRun): (calls: seq<string>)
  {
    run.chunks + (if run.throws then [ThinkingFallback] else [])
  }

  /** `streamAiResponse` as a loop over the stream; `calls` lists the arguments of
      `onChunk` in the order it is called. */
  method StreamAiResponse(run: StreamRun) returns (calls: seq<string>)
    ensures |calls| == |run.chunks| + (if run.throws then 1 else 0)
    ensures calls[..|run.chunks|] == run.chunks
    ensures run.throws ==> calls[|calls| - 1] == ThinkingFallback
    ensures calls == Delivered(run)
  {
    calls := [];
    var i := 0;
    while i < |run.chunks|
      invariant 0 <= i <= |run.chunks|
      invariant calls == run.chunks[..i]
    {
      calls := calls + [run.chunks[i]];
      i := i + 1;
    }
    assert run.chunks[..i] == run.chunks;
    if run.throws {
      calls := calls + [ThinkingFallback];
    }
  }
}

=== FILE: mock_chat.dfy ===
/** The mock chat page (frontend/components/ChatInterface.tsx): a guarded submit
    that appends the user's message and, after a fixed wait, one of four canned cat
    replies chosen at random. The random choice is the parameter `pick`. */
module MockChat {
  import opened Text

  datatype Role = User | Assistant

  /** A message of this page; it carries no persona. */
  datatype Message = Message(id: string, content: string, role: Role)

  datatype State = State(messages: seq<Message>, input: string, loading: bool)

  const Greeting := "Hello! I'm ChatZoo. Meow! 😺"

  /** The replies `Math.floor(Math.random() * 4)` picks from. */
  const MockReplies: seq<string> :=
    ["Meow meow! 😸", "Purrr... interesting! 🐱", "Mrow? 🐈", "Meow? (I'm just a cat, remember) 😼"]

  function Init(): (s: State)
    ensures s.messages == [Message("1", Greeting, Assistant)]
    ensures s.input == "" && !s.loading
  {
    State([Message("1", Greeting, Assistant)], "", false)
  }

  predicate CanSubmit(s: State)
  {
    Strip(s.input) != "" && !s.loading
  }

  /** The part of `handleSubmit` before the wait: append the user's message, clear
      the input, set loading. */
  function Submit(s: State, userId: string): (r: State)
    requires CanSubmit(s)
    ensures r.messages == s.messages + [Message(userId, s.input, User)]
    ensures r.input == "" && r.loading
  {
    State(s.messages + [Message(userId, s.input, User)], "", true)
  }

  /** The part after the wait: append the picked reply; `finally` clears loading. */
  function Resolve(s: State, replyId: string, pick: nat): (r: State)
    requires pick < |MockReplies|
    ensures |r.messages| == |s.messages| + 1 && r.messages[..|s.messages|] == s.messages
    ensures r.messages[|s.messages|].role == Assistant
    ensures r.messages[|s.messages|].content in MockReplies
    ensures !r.loading && r.input == s.input
  {
    s.(messages := s.messages + [Message(replyId, MockReplies[pick], Assistant)], loading := false)
  }

  /** `handleSubmit` run to the end: nothing happens when the guard fails; otherwise
      exactly one user message and then exactly one canned reply are appended. */
  function HandleSubmit(s: State, userId: string, replyId: string, pick: nat): (r: State)
    requires pick < |MockReplies|
    ensures !CanSubmit(s) ==> r == s
    ensures CanSubmit(s) ==>
      && |r.messages| == |s.messages| + 2
      && r.messages[..|s.messages|] == s.messages
      && r.messages[|s.messages|] == Message(userId, s.input, User)
      && r.messages[|s.messages| + 1].role == Assistant
      && r.messages[|s.messages| + 1].content in MockReplies
      && r.input == "" && !r.loading
  {
    if CanSubmit(s) then Resolve(Submit(s, userId), replyId, pick) else s
  }

  /** The log is the greeting followed by (user, assistant) pairs. */
  ghost predicate Alternating(msgs: seq<Message>)
  {
    && |msgs| % 2 == 1
    && msgs[0].role == Assistant
    && forall i :: 0 < i < |msgs| ==>
         msgs[i].role == (if i % 2 == 1 then User else Assistant)
  }

  /** Submissions keep the log alternating, starting from the greeting. */
  lemma HandleSubmitKeepsAlternating(s: State, userId: string, replyId: string, pick: nat)
    requires pick < |MockReplies|
    requires Alternating(s.messages)
    ensures Alternating(HandleSubmit(s, userId, replyId, pick).messages)
  {
    var r := HandleSubmit(s, userId, replyId, pick);
    if CanSubmit(s) {
      forall i | 0 < i < |r.messages|
        ensures r.messages[i].role == (if i % 2 == 1 then User else Assistant)
      {
        if i < |s.messages| {
          assert r.messages[i] == s.messages[i];
        }
      }
    }
  }

  lemma InitAlternating()
    ensures Alternating(Init().messages)
  {
  }
}

=== FILE: text.dfy ===
/** String helpers shared by the front ends and the backend: JavaScript's `trim`,
    Python's `strip`, `str.split()` into words, `sep.join`, `str.split(sep)`, and
    the concatenation of streamed fragments. */
module Text {
  import opened Common

  /** The whitespace that `trim`, `strip` and `split()` remove (their common ASCII part). */
  predicate IsSpace(c: char)
  {
    c == ' ' || c == '\t' || c == '\n' || c == '\r' || c == '\U{B}' || c == '\U{C}'
  }

  predicate AllSpace(s: string)
  {
    forall i :: 0 <= i < |s| ==> IsSpace(s[i])
  }

  /** A word as `str.split()` yields it: non-empty, no whitespace inside. */
  predicate IsWord(w: string)
  {
    |w| > 0 && forall i :: 0 <= i < |w| ==> !IsSpace(w[i])
  }

  /** Neither end is whitespace: what a strip leaves behind. */
  predicate Stripped(s: string)
  {
    |s| == 0 || (!IsSpace(s[0]) && !IsSpace(s[|s| - 1]))
  }

  lemma AllSpaceJoin(a: string, b: string)
    requires AllSpace(a) && AllSpace(b)
    ensures AllSpace(a + b)
  {
  }

  /** Length of the whitespace run at the start of `s`. */
  function LeadingSpace(s: string): (n: nat)
    ensures n <= |s|
    ensures AllSpace(s[..n])
    ensures n < |s| ==> !IsSpace(s[n])
  {
    if |s| == 0 || !IsSpace(s[0]) then 0
    else
      var k := LeadingSpace(s[1..]);
      assert s[..k + 1] == [s[0]] + s[1..][..k];
      k + 1
  }

  /** Length of the whitespace run at the end of `s`. */
  function TrailingSpace(s: string): (n: nat)
    ensures n <= |s|
    ensures AllSpace(s[|s| - n..])
    ensures n < |s| ==> !IsSpace(s[|s| - n - 1])
  {
    if |s| == 0 || !IsSpace(s[|s| - 1]) then 0
    else
      var t := s[..|s| - 1];
      var k := TrailingSpace(t);
      assert AllSpace(s[|s| - (k + 1)..]) by {
        var u := s[|s| - (k + 1)..];
        forall i | 0 <= i < |u|
          ensures IsSpace(u[i])
        {
          if i < k {
            assert u[i] == t[|t| - k..][i];
          }
        }
      }
      k + 1
  }

  /** `s.trim()` in JavaScript and `s.strip()` in Python: the text between the
      outer whitespace runs. It is blank exactly when `s` is all whitespace. */
  function Strip(s: string): (r: string)
    ensures Stripped(r)
    ensures |r| <= |s|
    ensures AllSpace(s) <==> r == ""
  {
    var a := LeadingSpace(s);
    var t := s[a..];
    var b := TrailingSpace(t);
    if b == |t| then
      assert s == s[..a] + t;
      AllSpaceJoin(s[..a], t);
      ""
    else
      assert !IsSpace(t[0]);
      assert !AllSpace(s) by { assert s[a] == t[0]; }
      t[..|t| - b]
  }

  lemma {:induction false} LeadingSpaceOf(a: string, rest: string)
    requires AllSpace(a)
    requires |rest| == 0 || !IsSpace(rest[0])
    ensures LeadingSpace(a + rest) == |a|
    decreases |a|
  {
    if |a| > 0 {
      assert (a + rest)[1..] == a[1..] + rest;
      LeadingSpaceOf(a[1..], rest);
    } else {
      assert a + rest == rest;
    }
  }

  lemma {:induction false} TrailingSpaceOf(rest: string, b: string)
    requires AllSpace(b)
    requires |rest| == 0 || !IsSpace(rest[|rest| - 1])
    ensures TrailingSpace(rest + b) == |b|
    decreases |b|
  {
    if |b| > 0 {
      assert (rest + b)[..|rest + b| - 1] == rest + b[..|b| - 1];
      TrailingSpaceOf(rest, b[..|b| - 1]);
    } else {
      assert rest + b == rest;
    }
  }

  /** Strip recovers the body from any whitespace padding, so it is determined by
      its contract: the result is stripped and differs from `s` only by padding. */
  lemma StripPadded(a: string, body: string, b: string)
    requires AllSpace(a) && AllSpace(b) && Stripped(body)
    ensures Strip(a + body + b) == body
  {
    var s := a + body + b;
    if |body| == 0 {
      assert s == a + b;
      AllSpaceJoin(a, b);
    } else {
      assert s == a + (body + b);
      LeadingSpaceOf(a, body + b);
      var t := s[|a|..];
      assert t == body + b;
      TrailingSpaceOf(body, b);
      assert t[..|t| - |b|] == body;
    }
  }

  /** Stripping twice changes nothing more. */
  lemma StripIdempotent(s: string)
    ensures Strip(Strip(s)) == Strip(s)
  {
    var r := Strip(s);
    StripPadded("", r, "");
    assert "" + r + "" == r;
  }

  /** The fragments of a stream glued together in arrival order. */
  function Concat(parts: seq<string>): string
  {
    if |parts| == 0 then "" else Concat(parts[..|parts| - 1]) + parts[|parts| - 1]
  }

  lemma {:induction false} ConcatAppend(a: seq<string>, b: seq<string>)
    ensures Concat(a + b) == Concat(a) + Concat(b)
    decreases |b|
  {
    if |b| == 0 {
      assert a + b == a;
    } else {
      var b' := b[..|b| - 1];
      assert (a + b)[..|a + b| - 1] == a + b';
      assert (a + b)[|a + b| - 1] == b[|b| - 1];
      ConcatAppend(a, b');
    }
  }

  /** Gluing more fragments only extends the text: earlier results are prefixes of later ones. */
  lemma ConcatPrefix(parts: seq<string>, n: nat, m: nat)
    requires n <= m <= |parts|
    ensures Concat(parts[..n]) <= Concat(parts[..m])
  {
    assert parts[..m] == parts[..n] + parts[n..m];
    ConcatAppend(parts[..n], parts[n..m]);
  }

  /** Every fragment is a single character, so gluing them gives back the characters. */
  lemma {:induction false} ConcatOfChars(s: string)
    ensures Concat(seq(|s|, i requires 0 <= i < |s| => [s[i]])) == s
    decreases |s|
  {
    var parts := seq(|s|, i requires 0 <= i < |s| => [s[i]]);
    if |s| > 0 {
      var s' := s[..|s| - 1];
      assert parts[..|parts| - 1] == seq(|s'|, i requires 0 <= i < |s'| => [s'[i]]);
      ConcatOfChars(s');
      assert s == s' + [s[|s| - 1]];
    }
  }

  /** Length of the run of non-whitespace at the start of `s`. */
  function WordLength(s: string): (n: nat)
    ensures n <= |s|
    ensures forall i :: 0 <= i < n ==> !IsSpace(s[i])
    ensures n < |s| ==> IsSpace(s[n])
  {
    if |s| == 0 || IsSpace(s[0]) then 0 else 1 + WordLength(s[1..])
  }

  /** Python's `str.split()` with no separator: the maximal whitespace-free runs, in order. */
  function Words(s: string): (ws: seq<string>)
    ensures forall i :: 0 <= i < |ws| ==> IsWord(ws[i])
    decreases |s|
  {
    if |s| == 0 then []
    else if IsSpace(s[0]) then Words(s[1..])
    else
      var n := WordLength(s);
      [s[..n]] + Words(s[n..])
  }

  /** Python's `sep.join(parts)`. */
  function JoinWith(parts: seq<string>, sep: string): string
  {
    if |parts| == 0 then ""
    else if |parts| == 1 then parts[0]
    else parts[0] + sep + JoinWith(parts[1..], sep)
  }

  lemma {:induction false} JoinWithSnoc(parts: seq<string>, last: string, sep: string)
    requires |parts| > 0
    ensures JoinWith(parts + [last], sep) == JoinWith(parts, sep) + sep + last
    decreases |parts|
  {
    if |parts| > 1 {
      assert (parts + [last])[1..] == parts[1..] + [last];
      JoinWithSnoc(parts[1..], last, sep);
    }
  }

  lemma {:induction false} WordLengthOf(w: string, tail: string)
    requires forall i :: 0 <= i < |w| ==> !IsSpace(w[i])
    requires |tail| == 0 || IsSpace(tail[0])
    ensures WordLength(w + tail) == |w|
    decreases |w|
  {
    if |w| > 0 {
      assert (w + tail)[1..] == w[1..] + tail;
      WordLengthOf(w[1..], tail);
    } else {
      assert w + tail == tail;
    }
  }

  lemma WordsOfWordThen(w: string, tail: string)
    requires IsWord(w)
    requires |tail| == 0 || IsSpace(tail[0])
    ensures Words(w + tail) == [w] + Words(tail)
  {
    var s := w + tail;
    WordLengthOf(w, tail);
    assert s[..|w|] == w && s[|w|..] == tail;
  }

  /** Splitting a space-joined list of words gives the list back. */
  lemma {:induction false} WordsOfJoin(ws: seq<string>)
    requires forall i :: 0 <= i < |ws| ==> IsWord(ws[i])
    ensures Words(JoinWith(ws, " ")) == ws
    decreases |ws|
  {
    if |ws| == 1 {
      WordsOfWordThen(ws[0], "");
      assert ws[0] + "" == ws[0];
    } else if |ws| > 1 {
      var rest := JoinWith(ws[1..], " ");
      WordsOfJoin(ws[1..]);
      assert ws[0] + " " + rest == ws[0] + (" " + rest);
      WordsOfWordThen(ws[0], " " + rest);
      assert (" " + rest)[1..] == rest;
    }
  }

  /** `m` occurs in `s` starting at position `i`. */
  predicate OccursAt(s: string, m: string, i: nat)
  {
    i + |m| <= |s| && s[i..i + |m|] == m
  }

  /** `m` does not occur anywhere in `s`. */
  ghost predicate Free(s: string, m: string)
  {
    forall i: nat :: !OccursAt(s, m, i)
  }

  /** The first occurrence of `m` in `s` at or after position `k`. */
  function IndexFrom(s: string, m: string, k: nat): (r: Option<nat>)
    ensures r.Some? ==> k <= r.value && r.value + |m| <= |s|
    decreases |s| - k
  {
    if k + |m| > |s| then None
    else if s[k..k + |m|] == m then Some(k)
    else IndexFrom(s, m, k + 1)
  }

  /** `IndexFrom` finds an occurrence, and none before it; when it finds nothing,
      there is nothing to find. */
  lemma {:induction false} IndexFromSpec(s: string, m: string, k: nat)
    ensures var r := IndexFrom(s, m, k);
      && (r.Some? ==> OccursAt(s, m, r.value))
      && (r.Some? ==> forall i: nat :: k <= i < r.value ==> !OccursAt(s, m, i))
      && (r.None? ==> forall i: nat :: k <= i ==> !OccursAt(s, m, i))
    decreases |s| - k
  {
    if k + |m| <= |s| && s[k..k + |m|] != m {
      IndexFromSpec(s, m, k + 1);
    }
  }

  /** The first occurrence of `m` in `s`, as Python's `str.find` reports it. */
  function IndexOf(s: string, m: string): (r: Option<nat>)
    ensures r.Some? ==> r.value + |m| <= |s|
  {
    IndexFrom(s, m, 0)
  }

  /** `IndexOf` gives the first occurrence, and `None` exactly when there is none. */
  lemma IndexOfSpec(s: string, m: string)
    ensures var r := IndexOf(s, m);
      && (r.Some? ==> OccursAt(s, m, r.value))
      && (r.Some? ==> forall i: nat :: i < r.value ==> !OccursAt(s, m, i))
      && (r.None? <==> Free(s, m))
  {
    IndexFromSpec(s, m, 0);
    if IndexOf(s, m).Some? {
      assert !Free(s, m) by {
        assert OccursAt(s, m, IndexOf(s, m).value);
      }
    }
  }

  /** An occurrence with none before it is the one `IndexOf` reports. */
  lemma IndexOfFirst(s: string, m: string, k: nat)
    requires OccursAt(s, m, k)
    requires forall i: nat :: i < k ==> !OccursAt(s, m, i)
    ensures IndexOf(s, m) == Some(k)
  {
    IndexOfSpec(s, m);
    var r := IndexOf(s, m);
    assert r.Some?;
    assert r.value <= k;
  }

  /** No occurrence of `m` lies inside `s[..i]` when none starts before `i` in `s`. */
  lemma FreePrefix(s: string, m: string, i: nat)
    requires |m| > 0 && i <= |s|
    requires forall q: nat :: q < i ==> !OccursAt(s, m, q)
    ensures Free(s[..i], m)
  {
    forall q: nat
      ensures !OccursAt(s[..i], m, q)
    {
      if q + |m| <= i {
        assert s[..i][q..q + |m|] == s[q..q + |m|];
        assert !OccursAt(s, m, q);
      }
    }
  }

  /** A text that starts with `m` has its first occurrence at 0. */
  lemma IndexOfAtStart(m: string, rest: string)
    ensures IndexOf(m + rest, m) == Some(0)
  {
    assert (m + rest)[0..|m|] == m;
    IndexOfFirst(m + rest, m, 0);
  }

  /** The text before the first occurrence of `m`, or all of it. */
  function Before(s: string, m: string): (r: string)
    ensures |r| <= |s|
  {
    match IndexOf(s, m)
    case Some(i) => s[..i]
    case None => s
  }

  /** Python's `s.split(sep)`: the pieces between the non-overlapping occurrences of
      `sep`, scanned left to right. */
  function Split(s: string, sep: string): (parts: seq<string>)
    requires |sep| > 0
    ensures |parts| >= 1
    decreases |s|
  {
    match IndexOf(s, sep)
    case None => [s]
    case Some(i) => [s[..i]] + Split(s[i + |sep|..], sep)
  }

  /** The first piece is the text before the first occurrence. */
  lemma SplitHead(s: string, sep: string)
    requires |sep| > 0
    ensures Split(s, sep)[0] == Before(s, sep)
  {
  }

  /** After the first occurrence, the pieces are those of the rest of the text. */
  lemma SplitTail(s: string, sep: string, i: nat)
    requires |sep| > 0
    requires IndexOf(s, sep) == Some(i)
    ensures Split(s, sep) == [s[..i]] + Split(s[i + |sep|..], sep)
  {
  }

  /** The text splits into one piece exactly when the separator does not occur, and
      no piece contains the separator. */
  lemma {:induction false} SplitPieces(s: string, sep: string)
    requires |sep| > 0
    ensures |Split(s, sep)| == 1 <==> Free(s, sep)
    ensures forall j :: 0 <= j < |Split(s, sep)| ==> Free(Split(s, sep)[j], sep)
    decreases |s|
  {
    IndexOfSpec(s, sep);
    match IndexOf(s, sep)
    case None =>
    case Some(i) =>
      var rest := Split(s[i + |sep|..], sep);
      SplitPieces(s[i + |sep|..], sep);
      FreePrefix(s, sep, i);
      assert Split(s, sep) == [s[..i]] + rest;
      forall j | 0 <= j < |Split(s, sep)|
        ensures Free(Split(s, sep)[j], sep)
      {
        if j > 0 {
          assert Split(s, sep)[j] == rest[j - 1];
        }
      }
  }

  /** Joining the pieces with the separator gives the string back. */
  lemma {:induction false} JoinSplit(s: string, sep: string)
    requires |sep| > 0
    ensures JoinWith(Split(s, sep), sep) == s
    decreases |s|
  {
    IndexOfSpec(s, sep);
    match IndexOf(s, sep)
    case None =>
    case Some(i) =>
      var rest := Split(s[i + |sep|..], sep);
      JoinSplit(s[i + |sep|..], sep);
      assert ([s[..i]] + rest)[1..] == rest;
      assert s == s[..i] + s[i..i + |sep|] + s[i + |sep|..];
  }

  /** The last character of `m` occurs nowhere earlier in `m`, as with "Cat:",
      "Goldfish:" and "Sloth:". */
  predicate LastOnce(m: string)
  {
    |m| > 0 && m[|m| - 1] !in m[..|m| - 1]
  }

  /** No occurrence of such an `m` starting inside `x` runs into a copy of `m`
      appended to `x`: it lies wholly inside `x`. */
  lemma OccursInside(x: string, m: string, tail: string, q: nat)
    requires LastOnce(m) && q < |x| && OccursAt(x + m + tail, m, q)
    ensures OccursAt(x, m, q)
  {
    var t := x + m + tail;
    var e := q + |m| - 1;
    assert t[e] == t[q..q + |m|][|m| - 1];
    assert x[q..q + |m|] == t[q..q + |m|];
  }

  /** In `x + m + tail` the first occurrence of `m` is the first one in `x`, or
      else the appended copy: the text before it is the text of `x` before `m`,
      whatever the tail holds. */
  lemma BeforeMarkedEnd(x: string, m: string, tail: string)
    requires LastOnce(m)
    ensures IndexOf(x + m + tail, m) == (if Free(x, m) then Some(|x|) else IndexOf(x, m))
    ensures Before(x + m + tail, m) == Before(x, m)
  {
    var t := x + m + tail;
    IndexOfSpec(x, m);
    match IndexOf(x, m)
    case Some(i) =>
      assert t[i..i + |m|] == x[i..i + |m|];
      forall q: nat | q < i
        ensures !OccursAt(t, m, q)
      {
        if OccursAt(t, m, q) {
          OccursInside(x, m, tail, q);
        }
      }
      IndexOfFirst(t, m, i);
      assert t[..i] == x[..i];
    case None =>
      assert t[|x|..|x| + |m|] == m;
      forall q: nat | q < |x|
        ensures !OccursAt(t, m, q)
      {
        if OccursAt(t, m, q) {
          OccursInside(x, m, tail, q);
        }
      }
      IndexOfFirst(t, m, |x|);
      assert t[..|x|] == x;
  }
}
